=== FILE: README.md ===
# python-challenge aggregator, modelled in Dafny

The program queries two code-hosting services for one user's public
repositories and combines the results. The user is the `mailchimp`
organisation in its tests. The services are GitHub (`api.github.com`) and
BitBucket (`bitbucket.org`, API version 2). The program reports four things:
the number of repositories, the total number of watchers, the set of
languages, and a list of topics (always empty).

The model covers four layers:

- **`ServiceConnection`** (`app/service/connection.py`) normalises base URLs
  with the `(?:http|ftp|https)://` rewrite and enforces the https-only rule
  for secure connections. It holds the service and emulator endpoint tables
  and builds endpoint URLs with `urlparse`/`urlencode`/`urlunparse`.
- **`Resource`** (`app/service/resources/__init__.py`) is a service
  connection plus the state filled in by `process_response`: the response,
  the languages, the repository count, the watcher count and the errors.
- **`GitHubResource` and `BitBucketResource`**
  (`app/service/resources/resources.py`) are the two providers. They have
  fixed base URLs and a `public_repo` endpoint. Each has its own way of
  turning a response into counts and languages. BitBucket also fetches the
  watchers page of every repository that links one, and sums the `size`
  field.
- **`AggregateResources`** (`app/service/resources/aggregate.py`) builds one
  resource per entry of the configuration dict
  (`app/service/resources/config.py`). It collects their URLs, hands each
  resource its response, and then sums the counts, unions the languages and
  gathers the errors.

Modules:

- `Wrappers` holds `Option`, the Python exception kinds, and `Result`. A
  `Raised` result is a raised exception, and `:-` propagates it.
- `Text` covers ASCII case, `str.capitalize` and prefix tests.
- `JsonValues` holds the decoded JSON payload. It gives Python's meaning to
  truthiness, `in`, `len`, `.get`, iteration, `+=` and `int()` on such
  values.
- `UrlParse` is the subset of the standard library's `urlparse`,
  `urlunparse` and `urlencode` that `build_url` uses. It includes a proof
  that parsing an unparsed, well-formed URL gives back its components.
- `Connection`, `Resources`, `Providers` and `Aggregation` follow the four
  source files.
- `ProviderUrls`, `ConnectionExamples` and `AggregateExamples` compute the
  concrete URLs and the configurations the test suite relies on.
  `ProviderExamples` works through a concrete GitHub listing and a
  concrete BitBucket page.

Every operation that can raise in Python returns a `Result` here, apart
from the escape handling of `re.sub` (see Left out). This includes the
`TypeError`s and `AttributeError`s that odd payload shapes cause.
Python's `None` for `errors` is the JSON value `JNull`. "The response
is `None`" means the response was never set, or the payload was JSON `null`.

## Model

| member | source | states |
|---|---|---|
| Connection.ValidBaseUrlStartsWithProtocol | app/service/connection.py:19-28 | for http, ftp or https, the normalised URL begins with `<protocol>://`, and every place the scheme pattern matches in it holds that protocol |
| Connection.ValidBaseUrlIdempotent | app/service/connection.py:19-28 | for http, ftp or https, normalising an already normalised base URL changes nothing |
| Connection.ValidBaseUrlFixedPoints | app/service/connection.py:19-28 | a URL is left unchanged exactly when it begins with `<protocol>://` and every scheme match in it is that protocol |
| Connection.RewriteFixesOnlyScheme | app/service/connection.py:24-25 | the substitution leaves a string alone when every match already holds the target protocol |
| Connection.RewriteOnlyScheme | app/service/connection.py:24-25 | after the substitution, every match of the pattern holds the target protocol |
| Connection.RewriteKeepsLeadingScheme | app/service/connection.py:24-26 | a scheme starts the rewritten URL exactly when one started the input, so the scheme is prefixed exactly when the input lacked one |
| Connection.ValidBaseUrlAddsScheme | app/service/connection.py:26-27 | a host without `:` becomes `<protocol>://host` |
| Connection.ValidBaseUrlReplacesScheme | app/service/connection.py:24-28 | a leading `http://`, `ftp://` or `https://` is replaced by the protocol's own and the rest is rewritten on its own (a port or path is kept); a rest without `:` is kept verbatim |
| Connection.RewriteWithoutColon | app/service/connection.py:24-25 | a string without `:` has no match and is left as it is |
| Connection.NewServiceConnection | app/service/connection.py:35-49 | raises ValueError with the source's message exactly when the connection is secure and the protocol is not `https`; otherwise it stores the given protocol (`https` when empty), the two base URLs normalised with the given protocol, which then begin with its scheme, and the endpoint tables held |
| Connection.BuildUrlReadsBack | app/service/connection.py:51-58 | when the parts can be written unambiguously, the built URL parses back to exactly the base URL's components with the new path and the encoded query: scheme, host, `;params` and fragment are kept |
| Connection.ServiceEndpointsAssigned | app/service/connection.py:73-91 | after a dict is assigned as the service table, service URLs are built from its entries, emulator URLs are unchanged, a later assignment overrides it, and re-assigning the held table changes nothing |
| Connection.EmulatorEndpointsAssigned | app/service/connection.py:84-97 | after a dict is assigned as the emulator table, emulator URLs are built from its entries, service URLs are unchanged, a later assignment overrides it, and re-assigning the held table changes nothing |
| Connection.BuildUrlRootsPath | app/service/connection.py:51-58 | with a host present, a relative path is written as if it began with `/` |
| Connection.ServiceConnectionUrlReadsBack | app/service/connection.py:90-91 | the service URL keeps the base URL's scheme and host, has the endpoint's path and has no query |
| Connection.EmulatorConnectionUrlReadsBack | app/service/connection.py:95-97 | the emulator URL keeps the emulator base URL's scheme and host, has the emulator endpoint's path and has no query |
| Connection.UnknownEndpointUrl | app/service/connection.py:90-91 | when the base URL's parts can be written back unambiguously, an unknown endpoint name gives the base URL with its path and query cleared |
| Connection.HostEndpointUrl | app/service/connection.py:90-91 | on a base URL `scheme://host` or `scheme://host/`, an endpoint's URL is the host followed by the rooted endpoint path |
| Connection.BuildOnHost | app/service/connection.py:51-58 | building on `scheme://host[/]` with no arguments writes `scheme://host` plus the rooted path |
| ConnectionExamples.InsecureProtocolExample | app/service/connection.py:43-45 | `http` with a secure connection raises `https protocol expected, http is given` |
| ConnectionExamples.PlainConnectionExample | app/service/connection.py:73-91 | an http connection with an assigned endpoint table serves `http://host` plus the endpoint path |
| ConnectionExamples.SecureConnectionExample | app/service/connection.py:35-49 | an https base URL with a plain host is kept, and an empty endpoint name yields the base URL |
| UrlParse.ParseUnparse | app/service/connection.py:55-58 | for well-formed components, parsing the unparsed URL returns the same components |
| Text.Capitalize | app/service/resources/resources.py:25 | the first character is not lower case and the rest is not upper case; the string is unchanged exactly when it already had that shape, so capitalising twice changes nothing more |
| Text.CapitalizeIgnoresCase | app/service/resources/resources.py:25 | spellings that differ only in case give the same language name |
| JsonValues.ToIntOfDecimalString | app/service/resources/resources.py:117 | `int()` of an integer's decimal text, signed or not, gives back that integer |
| Resources.NewResource | app/service/resources/__init__.py:7-14 | the connection rule of the base constructor applies; the new state is the fresh one: response and errors `None`, no languages, zero repositories and watchers |
| Resources.ResponseAssigned | app/service/resources/__init__.py:19-25 | the last assigned response is the one held, re-assigning the held response changes nothing, and an assigned response reads as `None` only when it is a JSON `null` |
| Providers.ProcessRepo | app/service/resources/resources.py:17-28 | succeeds exactly when every repository contributes; otherwise the error is that of the first failing repository |
| Providers.ProcessRepoAppend | app/service/resources/resources.py:22-28 | processing two runs of repositories in sequence equals combining their separate totals |
| Providers.ProcessRepoLanguages | app/service/resources/resources.py:22-25 | a language is collected exactly when some repository contributes it |
| Providers.RepoLanguageIgnoresCase | app/service/resources/resources.py:23-25 | two repositories whose languages differ only in case contribute the same capitalised name |
| Providers.NewGitHub | app/service/resources/resources.py:30-33 | the GitHub resource is created without error, on the GitHub base URL and `public_repo` table, in the fresh state |
| Providers.GitHubProcessResponse | app/service/resources/resources.py:35-57 | a None response raises ApiServiceException; processing succeeds exactly when the error read from the response can be read and is truthy, or the body is iterable and `process_repo` succeeds on it; `errors` becomes the exception's message or the body's `message` entry, and otherwise keeps its value; a truthy error changes nothing else; on success without an error the count is the list's length and the watchers and languages are `process_repo`'s |
| Providers.GitHubIdempotent | app/service/resources/resources.py:35-57 | processing the same response twice gives the state the first processing gave |
| Providers.NewBitBucket | app/service/resources/resources.py:73-76 | the BitBucket resource is created without error, on the BitBucket base URL and `public_repo` table, in the fresh state |
| Providers.WatcherLink | app/service/resources/resources.py:106-111 | succeeds exactly when `links` is falsy, or a dict whose `watchers` is falsy or a dict; yields at most one link, `watchers.href`, and none when either level is falsy |
| Providers.ScanRepos | app/service/resources/resources.py:101-111 | succeeds exactly when every repository scans; the first failure is reported; there are no more links than repositories |
| Providers.ScanReposAppend | app/service/resources/resources.py:101-111 | scanning two runs of repositories in sequence equals joining their separate scans |
| Providers.ScanReposLanguages | app/service/resources/resources.py:101-104 | a language is collected exactly when some repository contributes it |
| Providers.WatcherTotal | app/service/resources/resources.py:115-119 | succeeds exactly when every page converts; otherwise the first failing page's error |
| Providers.WatcherTotalSingle | app/service/resources/resources.py:115-117 | one page's total is that page's `int(size)` (with `WatcherTotalAppend` this fixes the total of any run of pages as the sum of their sizes) |
| Providers.WatcherTotalOfSizes | app/service/resources/resources.py:115-117 | pages reporting sizes n1, ..., nk give the total n1 + ... + nk |
| Providers.WatcherTotalAppend | app/service/resources/resources.py:115-119 | the total over two runs of pages is the sum of their totals, and a failure in the first run is kept |
| Providers.BitBucketCollect | app/service/resources/resources.py:78-112 | a None response raises; the step succeeds exactly when the error read from the response is truthy, or the body is a dict whose `values` is iterable and every repository in it scans; it stops early exactly when that error is truthy; `errors` becomes the exception's message or the body's `error` entry, and otherwise keeps its value; a truthy error changes nothing else; when it continues, the repository count is `size` (default 0) and the languages and links come from scanning `values` |
| Providers.BitBucketProcessResponse | app/service/resources/resources.py:78-123 | a None response raises ApiServiceException; processing succeeds exactly when the collection step does and either stops early or every fetched watchers page converts; `errors` is set as in the collection step, and a truthy error changes nothing else; on success without an error, count and languages are collected and the watcher count is the total over the fetched link pages |
| Providers.BitBucketIdempotent | app/service/resources/resources.py:78-123 | with the same fetch results, processing the same response twice gives the state the first processing gave |
| Providers.ProcessResponse | app/service/resources/__init__.py:27-32 | dispatch by class: a None response always raises ApiServiceException, the base class always raises, and processing never touches the response |
| Providers.FailureRecorded | app/service/resources/resources.py:43-44 | a non-empty exception response is recorded as the errors, and nothing else changes |
| Providers.MarkerRecorded | app/service/resources/resources.py:45-48 | a truthy error under the body's marker key (`message` for GitHub, `error` for BitBucket) is recorded and nothing is counted |
| Providers.RecordedErrorPersists | app/service/resources/resources.py:43-49 | an error recorded earlier stays and still blocks the counting while a dict or list response carries no marker of its own |
| Providers.NoneRejectedLikeBase | app/service/resources/__init__.py:27-32 | every class, base or provider, rejects a None response with the base class's ApiServiceException |
| ProviderUrls.GitHubRepoUrl | app/service/resources/resources.py:30-33 | GitHub's repository URL is `https://api.github.com/users/<user>/repos` |
| ProviderUrls.BitBucketRepoUrl | app/service/resources/resources.py:73-76 | BitBucket's repository URL is `https://bitbucket.org/api/2.0/repositories/<user>/` |
| Aggregation.Configure | app/service/resources/aggregate.py:20-31 | succeeds exactly when every configured class can be instantiated, giving the names in order and one instance per entry |
| Aggregation.ConfigureFirstFailure | app/service/resources/aggregate.py:25-27 | a failed configuration raises the error of the first class that cannot be instantiated |
| Aggregation.ProcessAll | app/service/resources/aggregate.py:39-42 | every instance receives its own response and is processed; succeeds exactly when every processing does, and keeps each instance's class and connection |
| Aggregation.ProcessResources | app/service/resources/aggregate.py:33-42 | succeeds exactly when every instance can process its own response; then names, classes and connections are kept and instance `k` holds the state that processing response `k` gives it |
| Aggregation.FetchFailureRecorded | app/service/resources/aggregate.py:33-42 | a failed fetch for instance `k` shows up as that instance's errors |
| Aggregation.ResourceErrors | app/service/resources/aggregate.py:48-56 | the error dict has exactly the configured names as keys, each mapped to its instance's errors |
| Aggregation.AggregateNumberOfRepos | app/service/resources/aggregate.py:73-82 | the loop computes the left-to-right repository total, or the `+=` error of the first non-numeric count |
| Aggregation.AggregateWatcherCount | app/service/resources/aggregate.py:84-93 | the loop computes the watcher total over all instances |
| Aggregation.AggregateReposLanguages | app/service/resources/aggregate.py:95-104 | the loop computes the union of the instances' languages |
| Aggregation.AggregateResults | app/service/resources/aggregate.py:58-71 | the results are the three aggregates and an empty topic list, and raise exactly when the repository total does |
| Aggregation.TotalReposAppend | app/service/resources/aggregate.py:73-82 | the total over two runs of instances is the sum of their totals; the first run's error comes first |
| Aggregation.TotalWatchersAppend | app/service/resources/aggregate.py:84-93 | the watcher total over two runs of instances is the sum of their totals |
| Aggregation.AllLanguagesMember | app/service/resources/aggregate.py:95-104 | a language is in the aggregate exactly when some instance has it |
| Aggregation.FreshTotals | app/service/resources/__init__.py:7-14 | unprocessed instances aggregate to zero repositories, zero watchers and no languages |
| Aggregation.ConfiguredTotalsZero | app/service/resources/aggregate.py:20-31 | a freshly configured aggregate reports zero repositories, zero watchers and no languages |
| ProviderExamples.GitHubThreeRepos | app/service/resources/resources.py:18-57 | a list of three repositories in Go, go and Python watched by 1, 2 and 3 users gives 3 repositories, 6 watchers and the languages Go and Python |
| ProviderExamples.BitBucketEmptyPage | app/service/resources/resources.py:95-119 | a page of size 10 with no repositories gives the repository count 10 and no watchers |
| AggregateExamples.FirstBadClassRaises | app/service/resources/aggregate.py:25-27 | if entry `k` is the first that cannot be instantiated, configuration raises its error |
| AggregateExamples.FakeResourceRaises | tests.py:207-210 | adding a class that is not a `Resource` to the default classes raises AssertionError |
| AggregateExamples.GitHubThenBitBucket | tests.py:191-192 | a two-entry configuration of GitHub then BitBucket builds exactly those two resources under the configured names |
| AggregateExamples.PairUrls | tests.py:195-196 | the aggregate's URL list is the GitHub URL followed by the BitBucket URL |
| AggregateExamples.DefaultConfiguration | app/service/resources/config.py:7 | the default configuration builds `github` and `bitbucket` resources whose URLs are the two repository URLs |

## Left out

- The HTTP layer (`AsyncRequest`, `RestEndpoint`, aiohttp, asyncio, ssl) is not part of this model. Its results are inputs: one `FetchResult` per URL, and for BitBucket a function from watcher links to fetched pages.
- The Flask routes and the command-line entry point are not part of this model.
- `print` calls and the `print("Getting value")` in the endpoint getters are side effects only and are not modelled.
- Percent-encoding in `urlencode` is not modelled: keys and values are joined with `=` and `&` unchanged, and the program only ever passes an empty argument list.
- `urlsplit`'s stripping of whitespace and control characters, its IPv6 bracket check and its port validation are not modelled.
- `ToInt` does not accept the surrounding whitespace or the digit-separating underscores that Python's `int()` does, nor non-ASCII digits; such strings raise ValueError in the model.
- Floats in payloads are not modelled: the JSON datatype has integers, strings, booleans, null, lists and objects only.
- When Python raises part-way through `process_response` or `process_resources`, the attributes already assigned stay assigned; the model returns only the exception, not the partially updated state.
- The `list_repos_topics` getter (returns `None`) and setter (does nothing) have no effect on any result and are not modelled; the aggregate topic list is the constant empty list.
- `setattr` with a configured name that clashes with an existing attribute, or that is not an identifier, is not modelled; the names only key the instances and the error dict.
- User-defined `Resource` subclasses are represented only by the two classes that cannot be instantiated with a user alone (`ResourceClass`, `NotAResource`); arbitrary subclasses are not modelled.
- Aggregation.AggregateReposLanguages: returns the language set rather than Python's list, because the list's order is the set's iteration order, which is unspecified.
- Exception messages that Python formats from type names are modelled for the JSON kinds only; messages that depend on CPython internals are approximated.
- Connection.RewriteSchemes: the protocol is spliced into the replacement text literally; Python's `re.sub` would interpret backslash escapes in it (`\n`, `\g<0>`) or raise `re.error` for an unknown one, so a protocol containing `\` is not modelled faithfully.
- Connection.SetServiceEndpoints: table values are modelled as strings; non-string values inside a dict are not modelled.
- Text.Capitalize: maps ASCII letters only; Python's `str.capitalize` also changes non-ASCII letters ('élan' becomes 'Élan'), and some of them change length ('ß' becomes 'Ss'), which the model's length-preserving contract does not cover.
- Providers.NotAPayload: an exception response that reaches `.get` or `len` raises the corresponding Python error; the message does not name the exception's concrete type.

=== FILE: aggregate.dfy ===
/** `AggregateResources` of `app/service/resources/aggregate.py`: one
    resource per configured provider, their responses processed, and their
    counts, languages and errors combined. */
module Aggregation {
  import opened Wrappers
  import opened JsonValues
  import opened Resources
  import opened Providers

  /** A class named in the resource configuration. */
  datatype ProviderClass =
    | GitHubClass
    | BitBucketClass
    /** The `Resource` base class itself, whose constructor wants more than a user. */
    | ResourceClass
    /** A class that does not derive from `Resource`. */
    | NotAResource

  /** The configuration dict, in insertion order: instance name to class. */
  type Config = seq<(string, ProviderClass)>

  /** `app/service/resources/config.py`: GitHub, then BitBucket. */
  const DefaultConfig: Config := [("github", GitHubClass), ("bitbucket", BitBucketClass)]

  /** Instance names and instances, position by position. */
  datatype Aggregate = Aggregate(names: seq<string>, instances: seq<Resource>)

  /** The `urls` list: each instance's `public_repo` URL, in order. */
  function Urls(agg: Aggregate): (urls: seq<string>)
    ensures |urls| == |agg.instances|
    ensures forall k | 0 <= k < |urls| :: urls[k] == RepoUrl(agg.instances[k], "public_repo")
  {
    seq(|agg.instances|, k requires 0 <= k < |agg.instances| => RepoUrl(agg.instances[k], "public_repo"))
  }

  predicate DistinctNames(names: seq<string>) {
    forall i, j | 0 <= i < j < |names| :: names[i] != names[j]
  }

  /** One instance per name, and no name repeats (the names are the keys
      of a dict). */
  predicate Valid(agg: Aggregate) {
    |agg.instances| == |agg.names| && DistinctNames(agg.names)
  }

  /** A `Resource` subclass whose constructor takes the user alone. */
  predicate Instantiable(cls: ProviderClass) {
    cls == GitHubClass || cls == BitBucketClass
  }

  /** The exception a class that cannot serve as a resource raises. */
  function ClassError(cls: ProviderClass): Exception
    requires !Instantiable(cls)
  {
    if cls == NotAResource then AssertionError
    else TypeError("__init__() missing 1 required positional argument: 'base_url'")
  }

  /** `assert issubclass(cls, Resource)`, then `cls(user)`. */
  function Instantiate(cls: ProviderClass, user: string): (r: Result<Resource>)
    ensures r.Ok? <==> Instantiable(cls)
    ensures !Instantiable(cls) ==> r == Raised(ClassError(cls))
    ensures cls == GitHubClass ==> r == NewGitHub(user)
    ensures cls == BitBucketClass ==> r == NewBitBucket(user)
  {
    match cls
    case GitHubClass => NewGitHub(user)
    case BitBucketClass => NewBitBucket(user)
    case _ => Raised(ClassError(cls))
  }

  function Names(config: Config): (names: seq<string>)
    ensures |names| == |config|
    ensures forall k | 0 <= k < |config| :: names[k] == config[k].0
  {
    if config == [] then [] else [config[0].0] + Names(config[1..])
  }

  /** `AggregateResources(user, config_resources)`: each configured class is
      checked and instantiated in order, and its `public_repo` URL noted. */
  function Configure(user: string, config: Config): (r: Result<Aggregate>)
    ensures r.Ok? <==> forall k | 0 <= k < |config| :: Instantiable(config[k].1)
    ensures r.Ok? ==>
      && r.value.names == Names(config)
      && |r.value.instances| == |config|
      && forall k | 0 <= k < |config| :: Instantiate(config[k].1, user) == Ok(r.value.instances[k])
  {
    if config == [] then Ok(Aggregate([], []))
    else
      var instance :- Instantiate(config[0].1, user);
      var rest :- Configure(user, config[1..]);
      assert forall k | 1 <= k < |config| :: config[k] == config[1..][k - 1];
      Ok(Aggregate([config[0].0] + rest.names, [instance] + rest.instances))
  }

  lemma ConfigureHeadFails(user: string, config: Config)
    requires config != [] && !Instantiable(config[0].1)
    ensures Configure(user, config) == Raised(ClassError(config[0].1))
  {
  }

  lemma ConfigureRestFails(user: string, config: Config)
    requires config != [] && Instantiable(config[0].1) && Configure(user, config[1..]).Raised?
    ensures Configure(user, config) == Configure(user, config[1..])
  {
  }

  /** A first unusable class in the tail, behind a usable head, is the
      first unusable class of the whole configuration. */
  lemma ShiftFirstFailure(config: Config, k: nat)
    requires config != [] && Instantiable(config[0].1) && k < |config| - 1
    requires !Instantiable(config[1..][k].1) && forall j | 0 <= j < k :: Instantiable(config[1..][j].1)
    ensures config[k + 1] == config[1..][k]
    ensures forall j | 0 <= j < k + 1 :: Instantiable(config[j].1)
  {
    forall j | 0 <= j < k + 1
      ensures Instantiable(config[j].1)
    {
      if j > 0 {
        assert config[j] == config[1..][j - 1];
      }
    }
  }

  /** Configuration stops at the first class that cannot serve as a
      resource, with that class's exception. */
  lemma {:induction false} ConfigureFirstFailure(user: string, config: Config)
    requires Configure(user, config).Raised?
    ensures exists k | 0 <= k < |config| ::
      && !Instantiable(config[k].1)
      && Configure(user, config).error == ClassError(config[k].1)
      && forall j | 0 <= j < k :: Instantiable(config[j].1)
  {
    var rest := config[1..];
    if Instantiable(config[0].1) {
      ConfigureRestFails(user, config);
      ConfigureFirstFailure(user, rest);
      var k :| 0 <= k < |rest|
        && !Instantiable(rest[k].1)
        && Configure(user, rest).error == ClassError(rest[k].1)
        && forall j | 0 <= j < k :: Instantiable(rest[j].1);
      ShiftFirstFailure(config, k);
      assert Configure(user, config).error == ClassError(config[k + 1].1);
    } else {
      ConfigureHeadFails(user, config);
    }
  }

  /** Each instance gets its response and processes it, in order; the
      first exception ends the processing. */
  function ProcessAll(instances: seq<Resource>, responses: seq<FetchResult>, fetch: seq<Json> -> seq<FetchResult>)
    : (r: Result<seq<Resource>>)
    requires |responses| == |instances|
    ensures r.Ok? <==> forall k | 0 <= k < |instances| ::
      ProcessResponse(instances[k].kind, WithResponse(instances[k], responses[k]).state, fetch).Ok?
    ensures r.Ok? ==> |r.value| == |instances| && forall k | 0 <= k < |instances| ::
      && r.value[k].kind == instances[k].kind
      && r.value[k].conn == instances[k].conn
      && Ok(r.value[k].state) == ProcessResponse(instances[k].kind, WithResponse(instances[k], responses[k]).state, fetch)
  {
    if instances == [] then Ok([])
    else
      var first := WithResponse(instances[0], responses[0]);
      var st :- ProcessResponse(first.kind, first.state, fetch);
      var rest :- ProcessAll(instances[1..], responses[1..], fetch);
      assert forall k | 1 <= k < |instances| :: instances[k] == instances[1..][k - 1] && responses[k] == responses[1..][k - 1];
      Ok([first.(state := st)] + rest)
  }

  /** `process_resources()`, given the responses the executor returns for
      the instances' URLs (one per URL, in order). */
  function ProcessResources(agg: Aggregate, responses: seq<FetchResult>, fetch: seq<Json> -> seq<FetchResult>)
    : (r: Result<Aggregate>)
    requires Valid(agg) && |responses| == |agg.instances|
    ensures r.Ok? ==> Valid(r.value) && r.value.names == agg.names
    ensures r.Ok? ==> forall k | 0 <= k < |agg.instances| ::
      && r.value.instances[k].conn == agg.instances[k].conn
      && r.value.instances[k].state.response == Some(responses[k])
    ensures r.Ok? <==> forall k | 0 <= k < |agg.instances| ::
      ProcessResponse(agg.instances[k].kind, WithResponse(agg.instances[k], responses[k]).state, fetch).Ok?
    ensures r.Ok? ==> forall k | 0 <= k < |agg.instances| ::
      && r.value.instances[k].kind == agg.instances[k].kind
      && Ok(r.value.instances[k].state)
         == ProcessResponse(agg.instances[k].kind, WithResponse(agg.instances[k], responses[k]).state, fetch)
  {
    var processed :- ProcessAll(agg.instances, responses, fetch);
    Ok(agg.(instances := processed))
  }

  /** `get_resource_errors()`: each instance's errors under its name. */
  method ResourceErrors(agg: Aggregate) returns (errors: map<string, Json>)
    requires Valid(agg)
    ensures errors.Keys == set k | 0 <= k < |agg.names| :: agg.names[k]
    ensures forall k | 0 <= k < |agg.names| :: errors[agg.names[k]] == agg.instances[k].state.errors
  {
    errors := map[];
    var i := 0;
    while i < |agg.names|
      invariant 0 <= i <= |agg.names|
      invariant errors.Keys == set k | 0 <= k < i :: agg.names[k]
      invariant forall k | 0 <= k < i :: errors[agg.names[k]] == agg.instances[k].state.errors
    {
      errors := errors[agg.names[i] := agg.instances[i].state.errors];
      i := i + 1;
    }
  }

  // ---------------------------------------------------------------------
  // Totals

  function Last<T>(s: seq<T>): T
    requires s != []
  {
    s[|s| - 1]
  }

  function AllButLast<T>(s: seq<T>): seq<T>
    requires s != []
  {
    s[..|s| - 1]
  }

  /** The repository total: `total += instance.total_number_of_repos`
      over the instances in order. A count that is not a number makes the
      addition raise. */
  function TotalRepos(instances: seq<Resource>): Result<int> {
    if instances == [] then Ok(0)
    else
      var before :- TotalRepos(AllButLast(instances));
      var count :- Addend(Last(instances).state.repoCount);
      Ok(before + count)
  }

  /** The watcher total. */
  function TotalWatchers(instances: seq<Resource>): int {
    if instances == [] then 0
    else TotalWatchers(AllButLast(instances)) + Last(instances).state.watcherCount
  }

  /** The union of the instances' languages. */
  function AllLanguages(instances: seq<Resource>): set<string> {
    if instances == [] then {}
    else AllLanguages(AllButLast(instances)) + Last(instances).state.languages
  }

  lemma PrefixStep<T>(s: seq<T>, i: nat)
    requires i < |s|
    ensures s[..i + 1] != [] && AllButLast(s[..i + 1]) == s[..i] && Last(s[..i + 1]) == s[i]
  {
  }

  /** `aggregate_number_of_repos`. */
  method AggregateNumberOfRepos(agg: Aggregate) returns (r: Result<int>)
    ensures r == TotalRepos(agg.instances)
  {
    var total := 0;
    var i := 0;
    while i < |agg.instances|
      invariant 0 <= i <= |agg.instances|
      invariant TotalRepos(agg.instances[..i]) == Ok(total)
    {
      PrefixStep(agg.instances, i);
      var count := Addend(agg.instances[i].state.repoCount);
      if count.Raised? {
        assert TotalRepos(agg.instances[..i + 1]) == Raised(count.error);
        RaisedPrefixStays(agg.instances, i + 1);
        assert agg.instances[..|agg.instances|] == agg.instances;
        return Raised(count.error);
      }
      total := total + count.value;
      i := i + 1;
    }
    assert agg.instances[..i] == agg.instances;
    r := Ok(total);
  }

  /** Once a prefix raises, every longer prefix raises the same way. */
  lemma {:induction false} RaisedPrefixStays(instances: seq<Resource>, i: nat)
    requires i <= |instances|
    requires TotalRepos(instances[..i]).Raised?
    ensures TotalRepos(instances) == TotalRepos(instances[..i])
    decreases |instances| - i
  {
    if i < |instances| {
      PrefixStep(instances, i);
      RaisedPrefixStays(instances, i + 1);
    } else {
      assert instances[..i] == instances;
    }
  }

  /** `aggregate_watcher_or_follower_count`. */
  method AggregateWatcherCount(agg: Aggregate) returns (total: int)
    ensures total == TotalWatchers(agg.instances)
  {
    total := 0;
    var i := 0;
    while i < |agg.instances|
      invariant 0 <= i <= |agg.instances|
      invariant TotalWatchers(agg.instances[..i]) == total
    {
      PrefixStep(agg.instances, i);
      total := total + agg.instances[i].state.watcherCount;
      i := i + 1;
    }
    assert agg.instances[..i] == agg.instances;
  }

  /** `aggregate_repos_languages`, as a set: the order of `list(langs)`
      follows Python's set iteration and is not modelled. */
  method AggregateReposLanguages(agg: Aggregate) returns (langs: set<string>)
    ensures langs == AllLanguages(agg.instances)
  {
    langs := {};
    var i := 0;
    while i < |agg.instances|
      invariant 0 <= i <= |agg.instances|
      invariant AllLanguages(agg.instances[..i]) == langs
    {
      PrefixStep(agg.instances, i);
      langs := langs + agg.instances[i].state.languages;
      i := i + 1;
    }
    assert agg.instances[..i] == agg.instances;
  }

  /** The dict `aggregate_results()` returns. */
  datatype Results = Results(totalRepos: int, totalWatchers: int, languages: set<string>, topics: seq<string>)

  /** `aggregate_results()`: the entries are computed in order, so a
      repository count that cannot be added raises before the rest. */
  method AggregateResults(agg: Aggregate) returns (r: Result<Results>)
    ensures r.Ok? <==> TotalRepos(agg.instances).Ok?
    ensures r.Raised? ==> r == Raised(TotalRepos(agg.instances).error)
    ensures r.Ok? ==> r.value == Results(
      TotalRepos(agg.instances).value, TotalWatchers(agg.instances), AllLanguages(agg.instances), [])
  {
    var repos := AggregateNumberOfRepos(agg);
    if repos.Raised? {
      return Raised(repos.error);
    }
    var watchers := AggregateWatcherCount(agg);
    var langs := AggregateReposLanguages(agg);
    r := Ok(Results(repos.value, watchers, langs, []));
  }

  // ---------------------------------------------------------------------
  // The totals over a split list of instances

  lemma SplitLast(a: seq<Resource>, b: seq<Resource>)
    requires b != []
    ensures a + b != [] && AllButLast(a + b) == a + AllButLast(b) && Last(a + b) == Last(b)
  {
    assert AllButLast(a + b) == a + AllButLast(b);
  }

  /** Adding up two runs of instances: the first run's exception wins,
      then the second's, and otherwise the totals add. */
  lemma {:induction false} TotalReposAppend(a: seq<Resource>, b: seq<Resource>)
    ensures TotalRepos(a).Raised? ==> TotalRepos(a + b) == TotalRepos(a)
    ensures TotalRepos(a).Ok? && TotalRepos(b).Raised? ==> TotalRepos(a + b) == TotalRepos(b)
    ensures TotalRepos(a).Ok? && TotalRepos(b).Ok? ==>
      TotalRepos(a + b) == Ok(TotalRepos(a).value + TotalRepos(b).value)
    decreases |b|
  {
    if b == [] {
      assert a + b == a;
    } else {
      SplitLast(a, b);
      TotalReposAppend(a, AllButLast(b));
    }
  }

  lemma {:induction false} TotalWatchersAppend(a: seq<Resource>, b: seq<Resource>)
    ensures TotalWatchers(a + b) == TotalWatchers(a) + TotalWatchers(b)
    decreases |b|
  {
    if b == [] {
      assert a + b == a;
    } else {
      SplitLast(a, b);
      TotalWatchersAppend(a, AllButLast(b));
    }
  }

  /** A language is in the aggregate exactly when some instance has it. */
  lemma {:induction false} AllLanguagesMember(instances: seq<Resource>, lang: string)
    ensures lang in AllLanguages(instances) <==>
      exists k | 0 <= k < |instances| :: lang in instances[k].state.languages
  {
    if instances != [] {
      var init := AllButLast(instances);
      AllLanguagesMember(init, lang);
      if lang in AllLanguages(instances) && lang !in Last(instances).state.languages {
        var k :| 0 <= k < |init| && lang in init[k].state.languages;
        assert instances[k] == init[k];
      }
      if exists k | 0 <= k < |instances| :: lang in instances[k].state.languages {
        var k :| 0 <= k < |instances| && lang in instances[k].state.languages;
        if k < |init| {
          assert init[k] == instances[k];
        }
      }
    }
  }

  /** Fresh instances add up to nothing. */
  lemma {:induction false} FreshTotals(instances: seq<Resource>)
    requires forall k | 0 <= k < |instances| :: instances[k].state == FreshState
    ensures TotalRepos(instances) == Ok(0)
    ensures TotalWatchers(instances) == 0
    ensures AllLanguages(instances) == {}
  {
    if instances != [] {
      var init := AllButLast(instances);
      assert forall k | 0 <= k < |init| :: init[k] == instances[k];
      FreshTotals(init);
    }
  }

  /** Straight after configuration, before any response, every total is
      zero and no language is known. */
  lemma ConfiguredTotalsZero(user: string, config: Config)
    requires Configure(user, config).Ok?
    ensures TotalRepos(Configure(user, config).value.instances) == Ok(0)
    ensures TotalWatchers(Configure(user, config).value.instances) == 0
    ensures AllLanguages(Configure(user, config).value.instances) == {}
  {
    var instances := Configure(user, config).value.instances;
    forall k | 0 <= k < |instances|
      ensures instances[k].state == FreshState
    {
      assert Instantiate(config[k].1, user) == Ok(instances[k]);
    }
    FreshTotals(instances);
  }

  /** An instance whose fetch failed with a message ends up with that
      message as its error in `get_resource_errors()`. */
  lemma FetchFailureRecorded(
    agg: Aggregate, responses: seq<FetchResult>, fetch: seq<Json> -> seq<FetchResult>, k: nat, message: string)
    requires Valid(agg) && |responses| == |agg.instances|
    requires ProcessResources(agg, responses, fetch).Ok?
    requires k < |agg.instances| && responses[k] == Failure(message) && message != ""
    ensures ProcessResources(agg, responses, fetch).value.instances[k].state.errors == JStr(message)
  {
    var res := WithResponse(agg.instances[k], responses[k]);
    var processed := ProcessAll(agg.instances, responses, fetch).value;
    assert Ok(processed[k].state) == ProcessResponse(res.kind, res.state, fetch);
    FailureRecorded(res.kind, res.state, fetch, message);
  }
}

=== FILE: aggregate_examples.dfy ===
/** The configuration of `app/service/resources/config.py` and a
    configuration with a class that is not a resource, as the aggregate's
    test cases use them. */
module AggregateExamples {
  import opened Wrappers
  import opened Resources
  import opened Providers
  import opened ProviderUrls
  import opened Aggregation

  /** The first class that cannot serve as a resource decides the
      exception configuration raises. */
  lemma {:induction false} FirstBadClassRaises(user: string, config: Config, k: nat)
    requires k < |config| && !Instantiable(config[k].1)
    requires forall j | 0 <= j < k :: Instantiable(config[j].1)
    ensures Configure(user, config) == Raised(ClassError(config[k].1))
  {
    if k > 0 {
      var rest := config[1..];
      assert rest[k - 1] == config[k];
      assert forall j | 0 <= j < k - 1 :: rest[j] == config[j + 1];
      FirstBadClassRaises(user, rest, k - 1);
      assert Instantiate(config[0].1, user).Ok?;
    }
  }

  /** A class that does not derive from `Resource`, configured after
      GitHub and BitBucket, makes configuration fail its assertion. */
  lemma FakeResourceRaises(user: string, fake: string)
    ensures Configure(user, DefaultConfig + [(fake, NotAResource)]) == Raised(AssertionError)
  {
    var config := DefaultConfig + [(fake, NotAResource)];
    FirstBadClassRaises(user, config, 2);
  }

  /** A GitHub entry followed by a BitBucket entry. */
  lemma GitHubThenBitBucket(user: string, config: Config)
    requires |config| == 2 && config[0].1 == GitHubClass && config[1].1 == BitBucketClass
    ensures Configure(user, config).Ok?
    ensures Configure(user, config).value.names == [config[0].0, config[1].0]
    ensures Configure(user, config).value.instances == [NewGitHub(user).value, NewBitBucket(user).value]
  {
    var agg := Configure(user, config).value;
    assert Instantiate(config[0].1, user) == Ok(agg.instances[0]);
    assert Instantiate(config[1].1, user) == Ok(agg.instances[1]);
  }

  /** The URLs of a GitHub connection and a BitBucket connection for the user. */
  lemma PairUrls(user: string, agg: Aggregate)
    requires |agg.instances| == 2
    requires agg.instances[0].conn.baseUrl == GitHubBaseUrl
    requires agg.instances[0].conn.serviceEndpoints == GitHubEndpoints(user)
    requires agg.instances[1].conn.baseUrl == BitBucketBaseUrl
    requires agg.instances[1].conn.serviceEndpoints == BitBucketEndpoints(user)
    ensures Urls(agg) == [
      "https://api.github.com/users/" + user + "/repos",
      "https://bitbucket.org/api/2.0/repositories/" + user + "/"]
  {
    GitHubUrlOn(user, agg.instances[0].conn);
    BitBucketUrlOn(user, agg.instances[1].conn);
  }

  /** The default configuration yields a GitHub and a BitBucket instance
      for the user, in that order, and their repository URLs. */
  lemma DefaultConfiguration(user: string)
    ensures Configure(user, DefaultConfig).Ok?
    ensures Configure(user, DefaultConfig).value.names == ["github", "bitbucket"]
    ensures Configure(user, DefaultConfig).value.instances == [NewGitHub(user).value, NewBitBucket(user).value]
    ensures Urls(Configure(user, DefaultConfig).value) == [
      "https://api.github.com/users/" + user + "/repos",
      "https://bitbucket.org/api/2.0/repositories/" + user + "/"]
  {
    GitHubThenBitBucket(user, DefaultConfig);
    PairUrls(user, Configure(user, DefaultConfig).value);
  }
}

=== FILE: connection.dfy ===
/** The connection descriptor of `app/service/connection.py`: base-URL
    normalisation, the protocol/secure check, URL building from the
    endpoint table. */
module Connection {
  import opened Wrappers
  import opened Text
  import opened UrlParse

  const DefaultProtocol: string := "https"

  /** The protocols whose `<protocol>://` is itself one of the rewritten schemes. */
  const Protocols: set<string> := {"http", "ftp", "https"}

  // ---------------------------------------------------------------------
  // get_valid_base_url

  /** The pattern `(?:http|ftp|https)://` matches at the start of `s`. */
  predicate StartsWithScheme(s: string) {
    StartsWith(s, "http://") || StartsWith(s, "ftp://") || StartsWith(s, "https://")
  }

  /** Length of the match at the start of `s`, the alternatives tried in
      the pattern's order. */
  function MatchLength(s: string): (n: nat)
    requires StartsWithScheme(s)
    ensures 0 < n <= |s|
  {
    if StartsWith(s, "http://") then 7
    else if StartsWith(s, "ftp://") then 6
    else 8
  }

  /** `re.sub(pattern, protocol + '://', s)`: scan from the left, replace
      each match and resume after it. */
  function RewriteSchemes(protocol: string, s: string): string
    decreases |s|
  {
    if |s| == 0 then ""
    else if StartsWithScheme(s) then protocol + "://" + RewriteSchemes(protocol, s[MatchLength(s)..])
    else [s[0]] + RewriteSchemes(protocol, s[1..])
  }

  /** `get_valid_base_url(protocol, base_url)`. */
  function ValidBaseUrl(protocol: string, baseUrl: string): string {
    var rewritten := RewriteSchemes(protocol, baseUrl);
    if StartsWithScheme(rewritten) then rewritten else protocol + "://" + rewritten
  }

  /** Every place where the pattern matches in `s` holds `<protocol>://`. */
  ghost predicate OnlyScheme(protocol: string, s: string) {
    forall i | 0 <= i <= |s| :: StartsWithScheme(s[i..]) ==> StartsWith(s[i..], protocol + "://")
  }

  /** No character of `t` can start a scheme. */
  predicate NoSchemeStart(t: string) {
    forall k | 0 <= k < |t| :: t[k] != 'h' && t[k] != 'f'
  }

  lemma ProtocolShape(protocol: string)
    requires protocol in Protocols
    ensures |protocol| > 0 && (protocol[0] == 'h' || protocol[0] == 'f')
    ensures NoSchemeStart((protocol + "://")[1..])
    ensures StartsWithScheme(protocol + "://")
  {
  }

  lemma MatchOfProtocol(protocol: string, s: string)
    requires protocol in Protocols
    requires StartsWith(s, protocol + "://")
    ensures StartsWithScheme(s) && MatchLength(s) == |protocol| + 3
  {
    if protocol == "https" {
      assert s[4] == 's';
    } else if protocol == "ftp" {
      assert s[0] == 'f';
    }
  }

  lemma MatchOfScheme(scheme: string, s: string)
    requires scheme in ["http://", "ftp://", "https://"]
    requires StartsWith(s, scheme)
    ensures StartsWithScheme(s) && MatchLength(s) == |scheme|
  {
    if scheme == "https://" {
      assert s[4] == 's';
    } else if scheme == "ftp://" {
      assert s[0] == 'f';
    }
  }

  /** The first character of a rewrite: the protocol's when a scheme
      starts the input, the input's own otherwise. */
  lemma RewriteFirst(protocol: string, s: string)
    requires |protocol| > 0 && |s| > 0
    ensures |RewriteSchemes(protocol, s)| > 0
    ensures RewriteSchemes(protocol, s)[0] == if StartsWithScheme(s) then protocol[0] else s[0]
  {
  }

  /** Inside `<protocol>://` no scheme starts after the first character. */
  lemma NoSchemeInsideHead(protocol: string, rest: string, i: nat)
    requires protocol in Protocols
    requires 0 < i < |protocol| + 3
    ensures !StartsWithScheme((protocol + "://" + rest)[i..])
  {
    ProtocolShape(protocol);
    var head := protocol + "://";
    assert (head + rest)[i..][0] == head[1..][i - 1];
  }

  /** Text without `:` does not start with a scheme. */
  lemma NoColonNoScheme(s: string)
    requires ':' !in s
    ensures !StartsWithScheme(s)
  {
    if |s| >= 6 { assert s[..6][3] == s[3]; }
    if |s| >= 7 { assert s[..7][4] == s[4]; }
    if |s| >= 8 { assert s[..8][5] == s[5]; }
  }

  /** A rewrite cannot invent a text that holds neither `h` nor `f`: such a
      prefix of the output was already a prefix of the input. */
  lemma {:induction false} RewritePreservesPlainPrefix(protocol: string, s: string, t: string)
    requires protocol in Protocols
    requires NoSchemeStart(t)
    requires StartsWith(RewriteSchemes(protocol, s), t)
    ensures StartsWith(s, t)
    decreases |s|
  {
    if |t| > 0 && |s| > 0 {
      var r := RewriteSchemes(protocol, s);
      ProtocolShape(protocol);
      RewriteFirst(protocol, s);
      assert r[0] == t[0];
      assert !StartsWithScheme(s);
      assert r == [s[0]] + RewriteSchemes(protocol, s[1..]);
      assert StartsWith(RewriteSchemes(protocol, s[1..]), t[1..]);
      RewritePreservesPlainPrefix(protocol, s[1..], t[1..]);
    }
  }

  lemma PrefixOfCons(c: char, tail: string, p: string)
    requires |p| > 0 && StartsWith([c] + tail, p)
    ensures c == p[0] && StartsWith(tail, p[1..])
  {
    assert ([c] + tail)[..|p|][1..] == tail[..|p| - 1];
  }

  lemma ConsOfPrefix(c: char, tail: string, p: string)
    requires |p| > 0 && c == p[0] && StartsWith(tail, p[1..])
    ensures StartsWith([c] + tail, p)
  {
    assert ([c] + tail)[..|p|] == [c] + tail[..|p| - 1];
    assert p == [p[0]] + p[1..];
  }

  /** When the rewrite copies the first character of `s`, a scheme that
      starts the rewrite already started `s`. */
  lemma CopiedHeadKeepsScheme(protocol: string, s: string, scheme: string)
    requires protocol in Protocols
    requires scheme in ["http://", "ftp://", "https://"]
    requires |s| > 0 && RewriteSchemes(protocol, s) == [s[0]] + RewriteSchemes(protocol, s[1..])
    ensures StartsWith(RewriteSchemes(protocol, s), scheme) ==> StartsWith(s, scheme)
  {
    var tail := RewriteSchemes(protocol, s[1..]);
    if StartsWith([s[0]] + tail, scheme) {
      PrefixOfCons(s[0], tail, scheme);
      RewritePreservesPlainPrefix(protocol, s[1..], scheme[1..]);
      assert s == [s[0]] + s[1..];
      ConsOfPrefix(s[0], s[1..], scheme);
    }
  }

  /** A scheme starts the rewrite of `s` exactly when one starts `s`, so
      `get_valid_base_url` prefixes `<protocol>://` exactly when the input
      had no leading scheme. */
  lemma RewriteKeepsLeadingScheme(protocol: string, s: string)
    requires protocol in Protocols
    ensures StartsWithScheme(RewriteSchemes(protocol, s)) <==> StartsWithScheme(s)
  {
    if |s| > 0 {
      if StartsWithScheme(s) {
        var head := protocol + "://";
        var rest := RewriteSchemes(protocol, s[MatchLength(s)..]);
        ProtocolShape(protocol);
        assert (head + rest)[..|head|] == head;
        MatchOfProtocol(protocol, head + rest);
      } else {
        CopiedHeadKeepsScheme(protocol, s, "http://");
        CopiedHeadKeepsScheme(protocol, s, "ftp://");
        CopiedHeadKeepsScheme(protocol, s, "https://");
      }
    }
  }

  /** Every match in a rewritten string is `<protocol>://`. */
  lemma {:induction false} RewriteOnlyScheme(protocol: string, s: string)
    requires protocol in Protocols
    ensures OnlyScheme(protocol, RewriteSchemes(protocol, s))
    decreases |s|
  {
    var r := RewriteSchemes(protocol, s);
    if |s| > 0 {
      var head := protocol + "://";
      ProtocolShape(protocol);
      if StartsWithScheme(s) {
        var rest := RewriteSchemes(protocol, s[MatchLength(s)..]);
        RewriteOnlyScheme(protocol, s[MatchLength(s)..]);
        assert r == head + rest;
        forall i | 0 <= i <= |r|
          ensures StartsWithScheme(r[i..]) ==> StartsWith(r[i..], head)
        {
          if 0 < i < |head| {
            NoSchemeInsideHead(protocol, rest, i);
          } else if i >= |head| {
            assert r[i..] == rest[i - |head|..];
          }
        }
      } else {
        var rest := RewriteSchemes(protocol, s[1..]);
        RewriteOnlyScheme(protocol, s[1..]);
        assert r == [s[0]] + rest;
        forall i | 0 <= i <= |r|
          ensures StartsWithScheme(r[i..]) ==> StartsWith(r[i..], head)
        {
          if i == 0 {
            RewriteKeepsLeadingScheme(protocol, s);
          } else {
            assert r[i..] == rest[i - 1..];
          }
        }
      }
    }
  }

  /** A string whose matches are all `<protocol>://` is left as it is. */
  lemma {:induction false} RewriteFixesOnlyScheme(protocol: string, s: string)
    requires protocol in Protocols
    requires OnlyScheme(protocol, s)
    ensures RewriteSchemes(protocol, s) == s
    decreases |s|
  {
    if |s| > 0 {
      if StartsWithScheme(s) {
        assert s[0..] == s;
        MatchOfProtocol(protocol, s);
        var n := |protocol| + 3;
        assert OnlyScheme(protocol, s[n..]) by {
          forall i | 0 <= i <= |s[n..]| && StartsWithScheme(s[n..][i..])
            ensures StartsWith(s[n..][i..], protocol + "://")
          {
            assert s[n..][i..] == s[n + i..];
          }
        }
        RewriteFixesOnlyScheme(protocol, s[n..]);
        assert s == protocol + "://" + s[n..];
      } else {
        assert OnlyScheme(protocol, s[1..]) by {
          forall i | 0 <= i <= |s[1..]| && StartsWithScheme(s[1..][i..])
            ensures StartsWith(s[1..][i..], protocol + "://")
          {
            assert s[1..][i..] == s[1 + i..];
          }
        }
        RewriteFixesOnlyScheme(protocol, s[1..]);
        assert s == [s[0]] + s[1..];
      }
    }
  }

  /** For a protocol in {http, ftp, https} the normalised URL starts with
      `<protocol>://`, and every scheme left in it is `<protocol>://`. */
  lemma ValidBaseUrlStartsWithProtocol(protocol: string, baseUrl: string)
    requires protocol in Protocols
    ensures StartsWith(ValidBaseUrl(protocol, baseUrl), protocol + "://")
    ensures OnlyScheme(protocol, ValidBaseUrl(protocol, baseUrl))
  {
    var r := RewriteSchemes(protocol, baseUrl);
    var head := protocol + "://";
    RewriteOnlyScheme(protocol, baseUrl);
    if StartsWithScheme(r) {
      assert r[0..] == r;
    } else {
      var u := head + r;
      ProtocolShape(protocol);
      assert u[0..] == u;
      forall i | 0 <= i <= |u|
        ensures StartsWithScheme(u[i..]) ==> StartsWith(u[i..], head)
      {
        if 0 < i < |head| {
          NoSchemeInsideHead(protocol, r, i);
        } else if i >= |head| {
          assert u[i..] == r[i - |head|..];
        }
      }
    }
  }

  /** Normalising twice gives the same URL as normalising once. */
  lemma ValidBaseUrlIdempotent(protocol: string, baseUrl: string)
    requires protocol in Protocols
    ensures ValidBaseUrl(protocol, ValidBaseUrl(protocol, baseUrl)) == ValidBaseUrl(protocol, baseUrl)
  {
    var u := ValidBaseUrl(protocol, baseUrl);
    ValidBaseUrlStartsWithProtocol(protocol, baseUrl);
    RewriteFixesOnlyScheme(protocol, u);
    MatchOfProtocol(protocol, u);
  }

  /** A URL comes back unchanged exactly when it starts with
      `<protocol>://` and holds no other scheme. */
  lemma ValidBaseUrlFixedPoints(protocol: string, baseUrl: string)
    requires protocol in Protocols
    ensures ValidBaseUrl(protocol, baseUrl) == baseUrl <==>
      StartsWith(baseUrl, protocol + "://") && OnlyScheme(protocol, baseUrl)
  {
    ValidBaseUrlStartsWithProtocol(protocol, baseUrl);
    if StartsWith(baseUrl, protocol + "://") && OnlyScheme(protocol, baseUrl) {
      RewriteFixesOnlyScheme(protocol, baseUrl);
      MatchOfProtocol(protocol, baseUrl);
    }
  }

  /** Without a `:` the text holds no scheme, so the rewrite leaves it alone. */
  lemma {:induction false} RewriteWithoutColon(protocol: string, s: string)
    requires ':' !in s
    ensures RewriteSchemes(protocol, s) == s
    decreases |s|
  {
    if |s| > 0 {
      NoColonNoScheme(s);
      RewriteWithoutColon(protocol, s[1..]);
      assert s == [s[0]] + s[1..];
    }
  }

  /** A base URL without any scheme gains `<protocol>://`, whatever the
      protocol: `www.test.org` becomes `https://www.test.org`. */
  lemma ValidBaseUrlAddsScheme(protocol: string, host: string)
    requires ':' !in host
    ensures ValidBaseUrl(protocol, host) == protocol + "://" + host
  {
    RewriteWithoutColon(protocol, host);
    NoColonNoScheme(host);
  }

  /** A leading `http://`, `ftp://` or `https://` is replaced by
      `<protocol>://` and the rest is rewritten on its own, whatever the
      protocol: with `https`, `http://x.com:80/a` becomes
      `https://x.com:80/a`. */
  lemma ValidBaseUrlReplacesScheme(protocol: string, scheme: string, rest: string)
    requires scheme in ["http://", "ftp://", "https://"]
    ensures RewriteSchemes(protocol, scheme + rest) == protocol + "://" + RewriteSchemes(protocol, rest)
    ensures protocol in Protocols ==>
      ValidBaseUrl(protocol, scheme + rest) == protocol + "://" + RewriteSchemes(protocol, rest)
    ensures ':' !in rest ==> RewriteSchemes(protocol, scheme + rest) == protocol + "://" + rest
    ensures protocol in Protocols && ':' !in rest ==>
      ValidBaseUrl(protocol, scheme + rest) == protocol + "://" + rest
  {
    var s := scheme + rest;
    MatchOfScheme(scheme, s);
    assert s[|scheme|..] == rest;
    if ':' !in rest {
      RewriteWithoutColon(protocol, rest);
    }
    if protocol in Protocols {
      var t := protocol + "://" + RewriteSchemes(protocol, rest);
      ProtocolShape(protocol);
      assert StartsWith(t, protocol + "://");
      MatchOfProtocol(protocol, t);
    }
  }

  // ---------------------------------------------------------------------
  // ServiceConnection

  /** A service connection: the protocol it was created with, the two
      normalised base URLs and the two endpoint tables (endpoint name to
      path). */
  datatype ServiceConnection = ServiceConnection(
    protocol: string,
    baseUrl: string,
    emulatorBaseUrl: string,
    serviceEndpoints: map<string, string>,
    emulatorEndpoints: map<string, string>)

  /** `ServiceConnection(protocol, base_url, secure_connection,
      emulator_base_url)`. The endpoint tables are the ones the instance
      holds when the constructor runs: the shared empty class tables, or
      tables a subclass assigned before calling it. */
  function NewServiceConnection(
    protocol: string, baseUrl: string, secure: bool, emulatorBaseUrl: string,
    serviceEndpoints: map<string, string>, emulatorEndpoints: map<string, string>
  ): (r: Result<ServiceConnection>)
    ensures r.Raised? <==> secure && protocol != "https"
    ensures r.Raised? ==> r.error == ValueError("https protocol expected, " + protocol + " is given")
    ensures r.Ok? ==> r.value.protocol != ""
    ensures r.Ok? && secure ==>
      && r.value.protocol == "https"
      && StartsWith(r.value.baseUrl, "https://")
      && StartsWith(r.value.emulatorBaseUrl, "https://")
    ensures r.Ok? && protocol in Protocols ==>
      && StartsWith(r.value.baseUrl, protocol + "://")
      && StartsWith(r.value.emulatorBaseUrl, protocol + "://")
    ensures r.Ok? ==> r.value.serviceEndpoints == serviceEndpoints && r.value.emulatorEndpoints == emulatorEndpoints
    ensures r.Ok? ==>
      && r.value.protocol == (if protocol != "" then protocol else "https")
      && r.value.baseUrl == ValidBaseUrl(protocol, baseUrl)
      && r.value.emulatorBaseUrl == ValidBaseUrl(protocol, emulatorBaseUrl)
  {
    if secure && protocol != "https" then
      Raised(ValueError("https protocol expected, " + protocol + " is given"))
    else
      ValidBaseUrlStartsWithProtocol("https", baseUrl);
      ValidBaseUrlStartsWithProtocol("https", emulatorBaseUrl);
      NormalisedForProtocol(protocol, baseUrl);
      NormalisedForProtocol(protocol, emulatorBaseUrl);
      Ok(ServiceConnection(
        if protocol != "" then protocol else DefaultProtocol,
        ValidBaseUrl(protocol, baseUrl),
        ValidBaseUrl(protocol, emulatorBaseUrl),
        serviceEndpoints,
        emulatorEndpoints))
  }

  lemma NormalisedForProtocol(protocol: string, url: string)
    ensures protocol in Protocols ==> StartsWith(ValidBaseUrl(protocol, url), protocol + "://")
  {
    if protocol in Protocols {
      ValidBaseUrlStartsWithProtocol(protocol, url);
    }
  }

  /** A value assigned to an endpoint table: a dict, or anything else. */
  datatype TableValue = Dict(entries: map<string, string>) | NotADict

  /** The `service_connection_endpoints` setter: a dict replaces the table,
      anything else raises and the connection is left as it was. */
  function SetServiceEndpoints(conn: ServiceConnection, value: TableValue): (r: Result<ServiceConnection>)
    ensures r.Raised? <==> value.NotADict?
    ensures r.Raised? ==> r.error == ValueError("Invalid Data type, Dict is expected")
    ensures r.Ok? ==> r.value == conn.(serviceEndpoints := value.entries)
  {
    match value
    case Dict(entries) => Ok(conn.(serviceEndpoints := entries))
    case NotADict => Raised(ValueError("Invalid Data type, Dict is expected"))
  }

  /** The `emulator_endpoints` setter. */
  function SetEmulatorEndpoints(conn: ServiceConnection, value: TableValue): (r: Result<ServiceConnection>)
    ensures r.Raised? <==> value.NotADict?
    ensures r.Raised? ==> r.error == ValueError("Invalid Data type, Dict is expected")
    ensures r.Ok? ==> r.value == conn.(emulatorEndpoints := value.entries)
  {
    match value
    case Dict(entries) => Ok(conn.(emulatorEndpoints := entries))
    case NotADict => Raised(ValueError("Invalid Data type, Dict is expected"))
  }

  /** After a dict is assigned as the service table, URL lookups read the
      new table, a second assignment overrides the first, re-assigning the
      current table changes nothing, and the emulator side is untouched. */
  lemma ServiceEndpointsAssigned(
    conn: ServiceConnection, entries: map<string, string>, later: TableValue, name: string)
    ensures SetServiceEndpoints(conn, Dict(entries)).Ok?
    ensures ServiceConnectionUrl(SetServiceEndpoints(conn, Dict(entries)).value, name)
      == BuildUrl(conn.baseUrl, EndpointPath(entries, name), [])
    ensures EmulatorConnectionUrl(SetServiceEndpoints(conn, Dict(entries)).value, name)
      == EmulatorConnectionUrl(conn, name)
    ensures SetServiceEndpoints(SetServiceEndpoints(conn, Dict(entries)).value, later)
      == SetServiceEndpoints(conn, later)
    ensures SetServiceEndpoints(conn, Dict(conn.serviceEndpoints)) == Ok(conn)
  {
  }

  /** The same laws for the emulator table, whose assignment leaves the
      service side untouched. */
  lemma EmulatorEndpointsAssigned(
    conn: ServiceConnection, entries: map<string, string>, later: TableValue, name: string)
    ensures SetEmulatorEndpoints(conn, Dict(entries)).Ok?
    ensures EmulatorConnectionUrl(SetEmulatorEndpoints(conn, Dict(entries)).value, name)
      == BuildUrl(conn.emulatorBaseUrl, EndpointPath(entries, name), [])
    ensures ServiceConnectionUrl(SetEmulatorEndpoints(conn, Dict(entries)).value, name)
      == ServiceConnectionUrl(conn, name)
    ensures SetEmulatorEndpoints(SetEmulatorEndpoints(conn, Dict(entries)).value, later)
      == SetEmulatorEndpoints(conn, later)
    ensures SetEmulatorEndpoints(conn, Dict(conn.emulatorEndpoints)) == Ok(conn)
  {
  }

  /** `build_url(base_url, path, params_args)`: the base URL with its path
      replaced by `path` and its query by the encoded arguments; scheme,
      host, params and fragment are kept. */
  function BuildUrl(baseUrl: string, path: string, args: seq<(string, string)>): string {
    Unparse(BuildComponents(baseUrl, path, args))
  }

  function BuildComponents(baseUrl: string, path: string, args: seq<(string, string)>): Components {
    Parse(baseUrl).(path := path, query := EncodeQuery(args))
  }

  /** A built URL reads back as the base URL's scheme, host, params and
      fragment with the new path and query, whenever those parts can be
      written unambiguously. */
  lemma BuildUrlReadsBack(baseUrl: string, path: string, args: seq<(string, string)>)
    requires WellFormed(BuildComponents(baseUrl, path, args))
    ensures Parse(BuildUrl(baseUrl, path, args)).scheme == Parse(baseUrl).scheme
    ensures Parse(BuildUrl(baseUrl, path, args)).netloc == Parse(baseUrl).netloc
    ensures Parse(BuildUrl(baseUrl, path, args)).path == path
    ensures Parse(BuildUrl(baseUrl, path, args)).query == EncodeQuery(args)
    ensures Parse(BuildUrl(baseUrl, path, args)).params == Parse(baseUrl).params
    ensures Parse(BuildUrl(baseUrl, path, args)).fragment == Parse(baseUrl).fragment
    ensures Parse(BuildUrl(baseUrl, path, args)) == BuildComponents(baseUrl, path, args)
  {
    ParseUnparse(BuildComponents(baseUrl, path, args));
  }

  /** The path as it is written behind a host: a relative path gains a `/`. */
  function Rooted(path: string): (r: string)
    ensures StartsWith(r, "/") || r == ""
    ensures r == path || r == "/" + path
  {
    if path != "" && path[0] != '/' then "/" + path else path
  }

  /** Behind a host, a relative path and its rooted form build the same URL:
      `users/x/repos` on `https://api.github.com/` gives
      `https://api.github.com/users/x/repos`. */
  lemma BuildUrlRootsPath(baseUrl: string, path: string, args: seq<(string, string)>)
    requires Parse(baseUrl).netloc != ""
    ensures BuildUrl(baseUrl, path, args) == BuildUrl(baseUrl, Rooted(path), args)
  {
    var c := BuildComponents(baseUrl, path, args);
    var d := BuildComponents(baseUrl, Rooted(path), args);
    if path != "" && path[0] != '/' {
      assert JoinParams(d.path, d.params) == "/" + JoinParams(c.path, c.params);
      assert Hierarchy(c) == Hierarchy(d);
    }
  }

  /** `get_service_connection_url(name)`: the base URL with the endpoint's
      path; an unknown name gives the empty path. */
  function ServiceConnectionUrl(conn: ServiceConnection, name: string): string {
    BuildUrl(conn.baseUrl, EndpointPath(conn.serviceEndpoints, name), [])
  }

  /** `get_emulator_connection_url(name)`. */
  function EmulatorConnectionUrl(conn: ServiceConnection, name: string): string {
    BuildUrl(conn.emulatorBaseUrl, EndpointPath(conn.emulatorEndpoints, name), [])
  }

  /** `table.get(name, '')`. */
  function EndpointPath(table: map<string, string>, name: string): (p: string)
    ensures name in table ==> p == table[name]
    ensures name !in table ==> p == ""
  {
    if name in table then table[name] else ""
  }

  /** A connection URL reads back as the base URL's scheme and host with the
      endpoint's path and no query. */
  lemma ServiceConnectionUrlReadsBack(conn: ServiceConnection, name: string)
    requires WellFormed(BuildComponents(conn.baseUrl, EndpointPath(conn.serviceEndpoints, name), []))
    ensures Parse(ServiceConnectionUrl(conn, name)).scheme == Parse(conn.baseUrl).scheme
    ensures Parse(ServiceConnectionUrl(conn, name)).netloc == Parse(conn.baseUrl).netloc
    ensures Parse(ServiceConnectionUrl(conn, name)).path == EndpointPath(conn.serviceEndpoints, name)
    ensures Parse(ServiceConnectionUrl(conn, name)).query == ""
  {
    BuildUrlReadsBack(conn.baseUrl, EndpointPath(conn.serviceEndpoints, name), []);
  }

  /** The same for the emulator's base URL and endpoint table. */
  lemma EmulatorConnectionUrlReadsBack(conn: ServiceConnection, name: string)
    requires WellFormed(BuildComponents(conn.emulatorBaseUrl, EndpointPath(conn.emulatorEndpoints, name), []))
    ensures Parse(EmulatorConnectionUrl(conn, name)).scheme == Parse(conn.emulatorBaseUrl).scheme
    ensures Parse(EmulatorConnectionUrl(conn, name)).netloc == Parse(conn.emulatorBaseUrl).netloc
    ensures Parse(EmulatorConnectionUrl(conn, name)).path == EndpointPath(conn.emulatorEndpoints, name)
    ensures Parse(EmulatorConnectionUrl(conn, name)).query == ""
  {
    BuildUrlReadsBack(conn.emulatorBaseUrl, EndpointPath(conn.emulatorEndpoints, name), []);
  }

  /** An unknown endpoint name gives the base URL stripped of its path and
      query. */
  lemma UnknownEndpointUrl(conn: ServiceConnection, name: string)
    requires name !in conn.serviceEndpoints
    requires WellFormed(Parse(conn.baseUrl).(path := "", query := ""))
    ensures Parse(ServiceConnectionUrl(conn, name)) == Parse(conn.baseUrl).(path := "", query := "")
  {
    ParseUnparse(Parse(conn.baseUrl).(path := "", query := ""));
  }

  // ---------------------------------------------------------------------
  // URLs on a plain host

  /** Components written as `url` are what `url` parses to. */
  lemma ParseOfWritten(c: Components, url: string)
    requires WellFormed(c) && Unparse(c) == url
    ensures Parse(url) == c
  {
    ParseUnparse(c);
  }

  /** A URL with a scheme, a host and a rooted (or empty) path. */
  lemma WrittenHostUrl(scheme: string, host: string, path: string)
    requires scheme != "" && host != "" && (path == "" || path[0] == '/')
    ensures Unparse(Components(scheme, host, path, "", "", "")) == scheme + "://" + host + path
  {
    var c := Components(scheme, host, path, "", "", "");
    assert Hierarchy(c) == "//" + host + path by {
      assert JoinParams(path, "") == path;
      assert WritesAuthority(c, path);
    }
    assert Trailer(c) == "";
    assert SchemePart(c) == scheme + ":";
    assert Unparse(c) == (scheme + ":") + ("//" + host + path + "");
    assert (scheme + ":") + ("//" + host + path + "") == scheme + "://" + host + path;
  }

  /** A host name that needs no escaping in a URL. */
  predicate PlainHost(host: string) {
    host != "" && ':' !in host && '/' !in host && '?' !in host && '#' !in host
  }

  /** A rooted endpoint path without `;`, `?` or `#`. */
  predicate PlainPath(path: string) {
    (path == "" || path[0] == '/') && ';' !in path && '?' !in path && '#' !in path
  }

  lemma NoSemicolonInLastSegment(path: string)
    requires ';' !in path
    ensures ';' !in LastSegment(path)
  {
    var i := RFind(path, '/');
    if i >= 0 {
      forall j | 0 <= j < |path[i..]|
        ensures path[i..][j] != ';'
      {
        assert path[i..][j] == path[i + j];
      }
    }
  }

  /** `scheme://host` with a rooted path reads back as its parts. */
  lemma ParseHostUrl(scheme: string, host: string, path: string)
    requires scheme in {"http", "https"} && PlainHost(host) && PlainPath(path)
    ensures Parse(scheme + "://" + host + path) == Components(scheme, host, path, "", "", "")
  {
    HostComponentsWellFormed(scheme, host, path);
    WrittenHostUrl(scheme, host, path);
    ParseOfWritten(Components(scheme, host, path, "", "", ""), scheme + "://" + host + path);
  }

  lemma HostComponentsWellFormed(scheme: string, host: string, path: string)
    requires scheme in {"http", "https"} && PlainHost(host) && PlainPath(path)
    ensures WellFormed(Components(scheme, host, path, "", "", ""))
  {
    NoSemicolonInLastSegment(path);
  }

  /** On a base URL `scheme://host` or `scheme://host/`, a path builds
      `scheme://host` followed by the path, rooted. */
  lemma BuildOnHost(baseUrl: string, scheme: string, host: string, basePath: string, path: string)
    requires scheme in {"http", "https"} && PlainHost(host) && basePath in {"", "/"}
    requires baseUrl == scheme + "://" + host + basePath
    ensures BuildUrl(baseUrl, path, []) == scheme + "://" + host + Rooted(path)
  {
    ParseHostUrl(scheme, host, basePath);
    var c := Components(scheme, host, basePath, "", "", "");
    assert Parse(baseUrl) == c;
    BuildUrlRootsPath(baseUrl, path, []);
    assert BuildComponents(baseUrl, Rooted(path), []) == c.(path := Rooted(path));
    WrittenHostUrl(scheme, host, Rooted(path));
  }

  /** On a connection to `scheme://host` or `scheme://host/`, an endpoint
      path builds `scheme://host` followed by the path, rooted. */
  lemma HostEndpointUrl(
    conn: ServiceConnection, scheme: string, host: string, basePath: string, name: string, path: string)
    requires scheme in {"http", "https"} && PlainHost(host) && basePath in {"", "/"}
    requires conn.baseUrl == scheme + "://" + host + basePath
    requires EndpointPath(conn.serviceEndpoints, name) == path
    ensures ServiceConnectionUrl(conn, name) == scheme + "://" + host + Rooted(path)
  {
    BuildOnHost(conn.baseUrl, scheme, host, basePath, path);
  }
}

=== FILE: connection_examples.dfy ===
/** Worked examples of service connections: the base URLs and connection
    URLs of concrete connections. */
module ConnectionExamples {
  import opened Wrappers
  import opened UrlParse
  import opened Connection

  /** A secure https connection to `https://<host>` keeps that base URL, and
      the empty endpoint name gives it back: with the host `www.test.org`,
      `https://www.test.org`. */
  lemma SecureConnectionExample(host: string)
    requires PlainHost(host)
    ensures NewServiceConnection("https", "https://" + host, true, "", map[], map[]).Ok?
    ensures
      var conn := NewServiceConnection("https", "https://" + host, true, "", map[], map[]).value;
      && conn.baseUrl == "https://" + host
      && ServiceConnectionUrl(conn, "") == "https://" + host
  {
    ValidBaseUrlReplacesScheme("https", "https://", host);
    var conn := NewServiceConnection("https", "https://" + host, true, "", map[], map[]).value;
    assert conn.baseUrl == "https://" + host;
    HostEndpointUrl(conn, "https", host, "", "", "");
  }

  /** A plain http connection to `http://<host>` given the endpoint
      `get_test` at a rooted path builds `http://<host><path>`: with
      `www.test.org` and `/test/get`, `http://www.test.org/test/get`. */
  lemma PlainConnectionExample(host: string, path: string)
    requires PlainHost(host) && PlainPath(path)
    ensures NewServiceConnection("http", "http://" + host, false, "", map[], map[]).Ok?
    ensures
      var conn := NewServiceConnection("http", "http://" + host, false, "", map[], map[]).value;
      && conn.baseUrl == "http://" + host
      && SetServiceEndpoints(conn, Dict(map["get_test" := path])).Ok?
      && ServiceConnectionUrl(SetServiceEndpoints(conn, Dict(map["get_test" := path])).value, "get_test")
         == "http://" + host + path
  {
    ValidBaseUrlReplacesScheme("http", "http://", host);
    var conn := NewServiceConnection("http", "http://" + host, false, "", map[], map[]).value;
    assert conn.baseUrl == "http://" + host;
    var withTable := SetServiceEndpoints(conn, Dict(map["get_test" := path])).value;
    HostEndpointUrl(withTable, "http", host, "", "get_test", path);
  }

  /** A secure connection refuses any protocol other than https. */
  lemma InsecureProtocolExample()
    ensures NewServiceConnection("http", "https://www.test.org", true, "", map[], map[])
      == Raised(ValueError("https protocol expected, http is given"))
  {
  }
}

=== FILE: json.dfy ===
/** Decoded JSON bodies, and the few Python operations the providers apply
    to them, with the exceptions Python raises when the value has an
    unexpected shape. JSON `null` is Python's `None`; JSON numbers are
    integers here (floating point is not modelled). */
module JsonValues {
  import opened Wrappers
  import opened Text

  datatype Json =
    | JNull
    | JBool(b: bool)
    | JInt(i: int)
    | JStr(s: string)
    | JList(items: seq<Json>)
    | JObject(fields: map<string, Json>)

  /** Python truthiness: `None`, `False`, `0`, `''`, `[]` and `{}` are false. */
  predicate Truthy(v: Json) {
    match v
    case JNull => false
    case JBool(b) => b
    case JInt(i) => i != 0
    case JStr(s) => s != ""
    case JList(items) => items != []
    case JObject(fields) => fields != map[]
  }

  /** Python's name of the type of `v`, as it appears in exception messages. */
  function TypeName(v: Json): string {
    match v
    case JNull => "NoneType"
    case JBool(_) => "bool"
    case JInt(_) => "int"
    case JStr(_) => "str"
    case JList(_) => "list"
    case JObject(_) => "dict"
  }

  /** `d.get(key, default)` on a dict. */
  function Get(fields: map<string, Json>, key: string, default: Json): (v: Json)
    ensures key in fields ==> v == fields[key]
    ensures key !in fields ==> v == default
  {
    if key in fields then fields[key] else default
  }

  /** The AttributeError Python raises for `v.get(...)` when `v` is not a dict. */
  function NoGet(v: Json): Exception {
    AttributeError("'" + TypeName(v) + "' object has no attribute 'get'")
  }

  /** `key in v`: key membership for a dict, element equality for a list,
      substring for a string; a TypeError for anything else. */
  function Contains(v: Json, key: string): (r: Result<bool>)
    ensures r.Raised? <==> v.JNull? || v.JBool? || v.JInt?
    ensures v.JObject? ==> r == Ok(key in v.fields)
    ensures v.JList? ==> r == Ok(JStr(key) in v.items)
  {
    match v
    case JObject(fields) => Ok(key in fields)
    case JList(items) => Ok(JStr(key) in items)
    case JStr(s) => Ok(ContainsSubstring(s, key))
    case _ => Raised(TypeError("argument of type '" + TypeName(v) + "' is not iterable"))
  }

  /** `len(v)`. */
  function Len(v: Json): (r: Result<nat>)
    ensures r.Ok? <==> v.JStr? || v.JList? || v.JObject?
    ensures v.JList? ==> r == Ok(|v.items|)
  {
    match v
    case JStr(s) => Ok(|s|)
    case JList(items) => Ok(|items|)
    case JObject(fields) => Ok(|fields|)
    case _ => Raised(TypeError("object of type '" + TypeName(v) + "' has no len()"))
  }

  /** The elements `for x in v` visits when the loop body calls `x.get(...)`
      first: a list gives its items; a non-empty dict or string gives keys
      or characters, which are strings, so the first `.get` raises. */
  function Records(v: Json): (r: Result<seq<Json>>)
    ensures r.Ok? <==> v.JList? || v == JStr("") || v == JObject(map[])
    ensures v.JList? ==> r == Ok(v.items)
    ensures r.Ok? && !v.JList? ==> r.value == []
  {
    match v
    case JList(items) => Ok(items)
    case JObject(fields) => if fields == map[] then Ok([]) else Raised(NoGet(JStr("")))
    case JStr(s) => if s == "" then Ok([]) else Raised(NoGet(JStr("")))
    case _ => Raised(TypeError("'" + TypeName(v) + "' object is not iterable"))
  }

  /** Python `n + v` for an int `n`: ints and bools (`True` is 1) add. */
  function Addend(v: Json): (r: Result<int>)
    ensures r.Ok? <==> v.JInt? || v.JBool?
    ensures v.JInt? ==> r == Ok(v.i)
  {
    match v
    case JInt(i) => Ok(i)
    case JBool(b) => Ok(if b then 1 else 0)
    case _ => Raised(TypeError("unsupported operand type(s) for +=: 'int' and '" + TypeName(v) + "'"))
  }

  predicate IsDecimal(s: string) {
    |s| > 0 && forall k | 0 <= k < |s| :: IsDigit(s[k])
  }

  /** The value of a string of decimal digits. */
  function DigitsValue(s: string): nat
    requires forall k | 0 <= k < |s| :: IsDigit(s[k])
  {
    if |s| == 0 then 0
    else
      assert IsDigit(s[|s| - 1]);
      10 * DigitsValue(s[..|s| - 1]) + (s[|s| - 1] as int - '0' as int)
  }

  /** `int(v)`: ints and bools convert; a string converts when it is an
      optionally signed run of ASCII digits; `None`, lists and dicts raise. */
  function ToInt(v: Json): (r: Result<int>)
    ensures v.JInt? ==> r == Ok(v.i)
    ensures v.JNull? || v.JList? || v.JObject? ==> r.Raised? && r.error.TypeError?
    ensures v.JStr? && IsDecimal(v.s) ==> r == Ok(DigitsValue(v.s))
  {
    match v
    case JInt(i) => Ok(i)
    case JBool(b) => Ok(if b then 1 else 0)
    case JStr(s) =>
      if IsDecimal(s) then Ok(DigitsValue(s))
      else if |s| > 1 && (s[0] == '+' || s[0] == '-') && IsDecimal(s[1..]) then
        var n: int := DigitsValue(s[1..]);
        Ok(if s[0] == '-' then -n else n)
      else Raised(ValueError("invalid literal for int() with base 10: '" + s + "'"))
    case _ => Raised(TypeError("int() argument must be a string, a bytes-like object or a number, not '" + TypeName(v) + "'"))
  }

  /** The decimal digits of a natural number, most significant first. */
  function DecimalDigits(n: nat): (s: string)
    ensures |s| > 0 && forall k | 0 <= k < |s| :: IsDigit(s[k])
    decreases n
  {
    var last := [('0' as int + n % 10) as char];
    if n < 10 then last else DecimalDigits(n / 10) + last
  }

  /** `str(n)` for an integer. */
  function DecimalString(n: int): string {
    if n < 0 then "-" + DecimalDigits(-n) else DecimalDigits(n)
  }

  lemma {:induction false} DigitsValueOfDecimal(n: nat)
    ensures DigitsValue(DecimalDigits(n)) == n
    decreases n
  {
    var s := DecimalDigits(n);
    if n >= 10 {
      DigitsValueOfDecimal(n / 10);
      assert s[..|s| - 1] == DecimalDigits(n / 10);
    }
  }

  /** `int(str(n)) == n`: a count a service sends as its decimal text
      converts back to the count. */
  lemma ToIntOfDecimalString(n: int)
    ensures ToInt(JStr(DecimalString(n))) == Ok(n)
  {
    var s := DecimalString(n);
    if n < 0 {
      assert s[1..] == DecimalDigits(-n);
      assert !IsDigit(s[0]);
      DigitsValueOfDecimal(-n);
    } else {
      DigitsValueOfDecimal(n);
    }
  }
}

=== FILE: provider_urls.dfy ===
/** The repository URLs the two providers fetch. */
module ProviderUrls {
  import opened Connection
  import opened Resources
  import opened Providers

  /** Appending a user name and a suffix to a path that follows an origin. */
  lemma AppendAfterOrigin(origin: string, path: string, user: string, suffix: string, whole: string)
    requires whole == origin + path
    ensures origin + (path + user + suffix) == whole + user + suffix
  {
  }

  // ---------------------------------------------------------------------
  // GitHub

  lemma GitHubHostPlain()
    ensures PlainHost("api.github.com")
  {
  }

  lemma GitHubBaseParts()
    ensures GitHubBaseUrl == "https" + "://" + "api.github.com" + "/"
  {
  }

  lemma GitHubOrigin(scheme: string, host: string)
    requires scheme == "https" && host == "api.github.com"
    ensures scheme + "://" + host == "https://api.github.com"
  {
  }

  lemma GitHubPrefix()
    ensures "https://api.github.com" + "/users/" == "https://api.github.com/users/"
  {
  }

  lemma GitHubEndpoint(user: string, conn: ServiceConnection)
    requires conn.serviceEndpoints == GitHubEndpoints(user)
    ensures EndpointPath(conn.serviceEndpoints, "public_repo") == "users/" + user + "/repos"
  {
  }

  lemma GitHubRootedPath(user: string)
    ensures Rooted("users/" + user + "/repos") == "/users/" + user + "/repos"
  {
    assert ("users/" + user + "/repos")[0] == 'u';
  }

  lemma GitHubConcat(user: string, scheme: string, host: string)
    requires scheme == "https" && host == "api.github.com"
    ensures scheme + "://" + host + ("/users/" + user + "/repos") == "https://api.github.com/users/" + user + "/repos"
  {
    GitHubOrigin(scheme, host);
    GitHubPrefix();
    AppendAfterOrigin("https://api.github.com", "/users/", user, "/repos", "https://api.github.com/users/");
  }

  lemma GitHubUrlOn(user: string, conn: ServiceConnection)
    requires conn.baseUrl == GitHubBaseUrl && conn.serviceEndpoints == GitHubEndpoints(user)
    ensures ServiceConnectionUrl(conn, "public_repo") == "https://api.github.com/users/" + user + "/repos"
  {
    GitHubEndpoint(user, conn);
    GitHubHostPlain();
    GitHubBaseParts();
    HostEndpointUrl(conn, "https", "api.github.com", "/", "public_repo", "users/" + user + "/repos");
    GitHubRootedPath(user);
    GitHubConcat(user, "https", "api.github.com");
  }

  /** The URL `GitHubResource(user)` fetches its repositories from. */
  lemma GitHubRepoUrl(user: string)
    ensures RepoUrl(NewGitHub(user).value, "public_repo") == "https://api.github.com/users/" + user + "/repos"
  {
    GitHubUrlOn(user, NewGitHub(user).value.conn);
  }

  // ---------------------------------------------------------------------
  // BitBucket

  lemma BitBucketHostPlain()
    ensures PlainHost("bitbucket.org")
  {
  }

  lemma BitBucketBaseParts()
    ensures BitBucketBaseUrl == "https" + "://" + "bitbucket.org" + "/"
  {
  }

  lemma BitBucketOrigin(scheme: string, host: string)
    requires scheme == "https" && host == "bitbucket.org"
    ensures scheme + "://" + host == "https://bitbucket.org"
  {
  }

  lemma BitBucketPrefix()
    ensures "https://bitbucket.org" + "/api/2.0/repositories/" == "https://bitbucket.org/api/2.0/repositories/"
  {
  }

  lemma BitBucketEndpoint(user: string, conn: ServiceConnection)
    requires conn.serviceEndpoints == BitBucketEndpoints(user)
    ensures EndpointPath(conn.serviceEndpoints, "public_repo") == "/api/2.0/repositories/" + user + "/"
  {
  }

  lemma BitBucketRootedPath(user: string)
    ensures Rooted("/api/2.0/repositories/" + user + "/") == "/api/2.0/repositories/" + user + "/"
  {
    assert ("/api/2.0/repositories/" + user + "/")[0] == '/';
  }

  lemma BitBucketConcat(user: string, scheme: string, host: string)
    requires scheme == "https" && host == "bitbucket.org"
    ensures scheme + "://" + host + ("/api/2.0/repositories/" + user + "/")
      == "https://bitbucket.org/api/2.0/repositories/" + user + "/"
  {
    BitBucketOrigin(scheme, host);
    BitBucketPrefix();
    AppendAfterOrigin(
      "https://bitbucket.org", "/api/2.0/repositories/", user, "/", "https://bitbucket.org/api/2.0/repositories/");
  }

  lemma BitBucketUrlOn(user: string, conn: ServiceConnection)
    requires conn.baseUrl == BitBucketBaseUrl && conn.serviceEndpoints == BitBucketEndpoints(user)
    ensures ServiceConnectionUrl(conn, "public_repo") == "https://bitbucket.org/api/2.0/repositories/" + user + "/"
  {
    BitBucketEndpoint(user, conn);
    BitBucketHostPlain();
    BitBucketBaseParts();
    HostEndpointUrl(conn, "https", "bitbucket.org", "/", "public_repo", "/api/2.0/repositories/" + user + "/");
    BitBucketRootedPath(user);
    BitBucketConcat(user, "https", "bitbucket.org");
  }

  /** The URL `BitBucketResource(user)` fetches its repositories from. */
  lemma BitBucketRepoUrl(user: string)
    ensures RepoUrl(NewBitBucket(user).value, "public_repo")
      == "https://bitbucket.org/api/2.0/repositories/" + user + "/"
  {
    BitBucketUrlOn(user, NewBitBucket(user).value.conn);
  }
}

=== FILE: providers.dfy ===
/** The two providers of `app/service/resources/resources.py`: how a GitHub
    repository list and a BitBucket repository page become repository
    counts, watcher counts and languages. */
module Providers {
  import opened Wrappers
  import opened Text
  import opened JsonValues
  import opened Connection
  import opened Resources

  // ---------------------------------------------------------------------
  // Shared steps

  /** `lang = repo.get('language')`, then `languages.add(lang.capitalize())`
      when `lang` is truthy: the languages one repository contributes. */
  function RepoLanguage(fields: map<string, Json>): (r: Result<set<string>>)
    ensures r.Ok? <==> !Truthy(Get(fields, "language", JNull)) || Get(fields, "language", JNull).JStr?
    ensures r.Ok? && Truthy(Get(fields, "language", JNull)) ==>
      r.value == {Capitalize(Get(fields, "language", JNull).s)}
    ensures r.Ok? && !Truthy(Get(fields, "language", JNull)) ==> r.value == {}
  {
    var lang := Get(fields, "language", JNull);
    if !Truthy(lang) then Ok({})
    else if lang.JStr? then Ok({Capitalize(lang.s)})
    else Raised(AttributeError("'" + TypeName(lang) + "' object has no attribute 'capitalize'"))
  }

  /** The error a provider reads from its response before processing it:
      the exception's message, or the body's `marker` entry when
      `marker in body`; otherwise the errors already recorded. */
  function ReportedErrors(st: ResourceState, marker: string): (r: Result<Json>)
    requires !ResponseIsNone(st)
    ensures st.response.value.Failure? ==> r == Ok(JStr(st.response.value.message))
    ensures st.response.value.Payload? && st.response.value.body.JObject? ==>
      r == Ok(Get(st.response.value.body.fields, marker, st.errors))
    ensures st.response.value.Payload? && st.response.value.body.JList? ==>
      (r.Ok? <==> JStr(marker) !in st.response.value.body.items)
    ensures r.Ok? && st.response.value.Payload? && !st.response.value.body.JObject? ==> r.value == st.errors
    ensures r.Raised? ==> r.error.TypeError? || r.error.AttributeError?
  {
    match st.response.value
    case Failure(message) => Ok(JStr(message))
    case Payload(body) =>
      var hit :- Contains(body, marker);
      if !hit then Ok(st.errors)
      else if body.JObject? then Ok(body.fields[marker])
      else Raised(NoGet(body))
  }

  /** The `.get` or `len()` an exception object does not support. */
  function NotAPayload(operation: string): Exception {
    if operation == "len" then TypeError("object of type 'Exception' has no len()")
    else AttributeError("'Exception' object has no attribute '" + operation + "'")
  }

  /** An https base URL without a port or credentials is kept as it is. */
  lemma SecureBaseUrlKept(host: string, url: string)
    requires ':' !in host && url == "https://" + host
    ensures ValidBaseUrl("https", url) == url
  {
    ValidBaseUrlReplacesScheme("https", "https://", host);
  }

  // ---------------------------------------------------------------------
  // GitHub

  /** `https://api.github.com/`, written as scheme part and host part so
      that the verifier does not evaluate the base-URL rewrite on it
      character by character wherever a GitHub resource appears. */
  const GitHubBaseUrl: string := "https://" + "api.github.com/"

  /** The endpoint table `GitHubResource(user)` installs. */
  function GitHubEndpoints(user: string): map<string, string> {
    map["public_repo" := "users/" + user + "/repos"]
  }

  /** What one repository adds in `process_repo`: its watchers and its
      language. */
  function RepoContribution(repo: Json): (r: Result<(int, set<string>)>)
    ensures r.Ok? <==>
      && repo.JObject?
      && RepoLanguage(repo.fields).Ok?
      && Addend(Get(repo.fields, "watchers_count", JInt(0))).Ok?
    ensures r.Ok? ==>
      && r.value.0 == Addend(Get(repo.fields, "watchers_count", JInt(0))).value
      && r.value.1 == RepoLanguage(repo.fields).value
  {
    if !repo.JObject? then Raised(NoGet(repo))
    else
      var langs :- RepoLanguage(repo.fields);
      var watchers :- Addend(Get(repo.fields, "watchers_count", JInt(0)));
      Ok((watchers, langs))
  }

  /** `GitHubResource.process_repo(repos)`: the total watcher count and the
      set of capitalised languages; the first repository that cannot be
      read raises. */
  function ProcessRepo(repos: seq<Json>): (r: Result<(int, set<string>)>)
    ensures r.Ok? <==> forall k | 0 <= k < |repos| :: RepoContribution(repos[k]).Ok?
    ensures r.Raised? ==> exists k | 0 <= k < |repos| ::
      && RepoContribution(repos[k]) == Raised(r.error)
      && forall j | 0 <= j < k :: RepoContribution(repos[j]).Ok?
  {
    if repos == [] then Ok((0, {}))
    else
      var head, rest := RepoContribution(repos[0]), ProcessRepo(repos[1..]);
      assert forall k | 1 <= k < |repos| :: repos[k] == repos[1..][k - 1];
      Combine(head, rest, AddTally)
  }

  /** `GitHubResource(user)`. */
  function NewGitHub(user: string): (r: Result<Resource>)
    ensures r.Ok? && r.value.kind == GitHub
    ensures r.value.conn.baseUrl == GitHubBaseUrl && r.value.conn.serviceEndpoints == GitHubEndpoints(user)
    ensures r.value.state == FreshState
  {
    SecureBaseUrlKept("api.github.com/", GitHubBaseUrl);
    NewResource(GitHub, "https", GitHubBaseUrl, true, GitHubEndpoints(user))
  }

  /** `GitHubResource.process_response`. A recorded or reported error stops
      the processing; otherwise the body is the repository list: its
      length is the repository count and `process_repo` gives the watchers
      and languages. */
  function GitHubProcessResponse(st: ResourceState): (r: Result<ResourceState>)
    ensures ResponseIsNone(st) <==> r == Raised(ApiServiceException("Response is invalid"))
    ensures r.Ok? ==> r.value.response == st.response
    ensures r.Ok? && Truthy(r.value.errors) ==>
      r.value == st.(errors := r.value.errors)
    ensures r.Ok? && !Truthy(r.value.errors) ==>
      && st.response.value.Payload?
      && Records(st.response.value.body).Ok?
      && r.value.repoCount == JInt(|Records(st.response.value.body).value|)
      && ProcessRepo(Records(st.response.value.body).value) == Ok((r.value.watcherCount, r.value.languages))
    ensures !ResponseIsNone(st) && r.Ok? ==> ReportedErrors(st, "message") == Ok(r.value.errors)
    ensures r.Ok? <==>
      && !ResponseIsNone(st)
      && ReportedErrors(st, "message").Ok?
      && (|| Truthy(ReportedErrors(st, "message").value)
          || (&& st.response.value.Payload?
              && Records(st.response.value.body).Ok?
              && ProcessRepo(Records(st.response.value.body).value).Ok?))
  {
    if ResponseIsNone(st) then Raised(ApiServiceException("Response is invalid"))
    else
      var errors :- ReportedErrors(st, "message");
      if Truthy(errors) then Ok(st.(errors := errors))
      else
        match st.response.value
        case Failure(_) => Raised(NotAPayload("len"))
        case Payload(body) =>
          // `'message' in body` already raised for bodies without a length
          var count := Len(body).value;
          var repos :- Records(body);
          var totals :- ProcessRepo(repos);
          Ok(st.(errors := errors, repoCount := JInt(count), watcherCount := totals.0, languages := totals.1))
  }

  /** A language is reported exactly when some repository has it. */
  lemma {:induction false} ProcessRepoLanguages(repos: seq<Json>, lang: string)
    requires ProcessRepo(repos).Ok?
    ensures lang in ProcessRepo(repos).value.1 <==>
      exists k | 0 <= k < |repos| :: lang in RepoContribution(repos[k]).value.1
    decreases |repos|
  {
    if repos != [] {
      ProcessRepoLanguages(repos[1..], lang);
      if lang in ProcessRepo(repos[1..]).value.1 {
        var k :| 0 <= k < |repos[1..]| && lang in RepoContribution(repos[1..][k]).value.1;
        assert repos[1..][k] == repos[k + 1];
      }
      if exists k | 0 <= k < |repos| :: lang in RepoContribution(repos[k]).value.1 {
        var k :| 0 <= k < |repos| && lang in RepoContribution(repos[k]).value.1;
        if k > 0 {
          assert repos[1..][k - 1] == repos[k];
        }
      }
    }
  }

  /** Two partial results combined by `join`; the first exception wins.
      Both repository walks fold their per-repository results with it. */
  function Combine<T>(head: Result<T>, rest: Result<T>, join: (T, T) -> T): (r: Result<T>)
    ensures r.Ok? <==> head.Ok? && rest.Ok?
    ensures r.Ok? ==> r.value == join(head.value, rest.value)
    ensures head.Raised? ==> r == head
    ensures head.Ok? && rest.Raised? ==> r == rest
  {
    var h :- head;
    var t :- rest;
    Ok(join(h, t))
  }

  /** Combining is associative whenever `join` is on the values at hand. */
  lemma CombineAssociative<T>(x: Result<T>, y: Result<T>, z: Result<T>, join: (T, T) -> T)
    requires x.Ok? && y.Ok? && z.Ok? ==>
      join(x.value, join(y.value, z.value)) == join(join(x.value, y.value), z.value)
    ensures Combine(x, Combine(y, z, join), join) == Combine(Combine(x, y, join), z, join)
  {
  }

  /** `CombineAssociative` read as a rewrite: a fold whose tail is itself
      a combination can be regrouped to combine its head part first. */
  lemma CombineRegroup<T>(whole: Result<T>, part: Result<T>, x: Result<T>, y: Result<T>, z: Result<T>, join: (T, T) -> T)
    requires whole == Combine(x, Combine(y, z, join), join)
    requires part == Combine(x, y, join)
    requires x.Ok? && y.Ok? && z.Ok? ==>
      join(x.value, join(y.value, z.value)) == join(join(x.value, y.value), z.value)
    ensures whole == Combine(part, z, join)
  {
    CombineAssociative(x, y, z, join);
  }

  /** The head and tail of a concatenation whose first part is not empty. */
  lemma TailOfAppend<T>(a: seq<T>, b: seq<T>)
    requires a != []
    ensures (a + b)[0] == a[0] && (a + b)[1..] == a[1..] + b
  {
  }

  /** A watcher count and a language set: counts add, languages unite. */
  function AddTally(x: (int, set<string>), y: (int, set<string>)): (int, set<string>) {
    (x.0 + y.0, x.1 + y.1)
  }

  lemma AddTallyAssociative(x: (int, set<string>), y: (int, set<string>), z: (int, set<string>))
    ensures AddTally(x, AddTally(y, z)) == AddTally(AddTally(x, y), z)
  {
    assert x.1 + (y.1 + z.1) == (x.1 + y.1) + z.1;
  }

  lemma ProcessRepoStep(repos: seq<Json>)
    requires repos != []
    ensures ProcessRepo(repos) == Combine(RepoContribution(repos[0]), ProcessRepo(repos[1..]), AddTally)
  {
  }

  /** The inductive step of `ProcessRepoAppend`. */
  lemma ProcessRepoAppendStep(a: seq<Json>, b: seq<Json>)
    requires a != []
    requires ProcessRepo(a[1..] + b) == Combine(ProcessRepo(a[1..]), ProcessRepo(b), AddTally)
    ensures ProcessRepo(a + b) == Combine(ProcessRepo(a), ProcessRepo(b), AddTally)
  {
    var x, y, z := RepoContribution(a[0]), ProcessRepo(a[1..]), ProcessRepo(b);
    TailOfAppend(a, b);
    ProcessRepoStep(a + b);
    ProcessRepoStep(a);
    if x.Ok? && y.Ok? && z.Ok? {
      AddTallyAssociative(x.value, y.value, z.value);
    }
    CombineRegroup(ProcessRepo(a + b), ProcessRepo(a), x, y, z, AddTally);
  }

  /** Processing a concatenation of repository lists is processing each
      part and combining: watchers add up, languages unite, and the first
      part's error comes first. */
  lemma {:induction false} ProcessRepoAppend(a: seq<Json>, b: seq<Json>)
    ensures ProcessRepo(a + b) == Combine(ProcessRepo(a), ProcessRepo(b), AddTally)
    decreases |a|
  {
    if a == [] {
      assert a + b == b;
      if ProcessRepo(b).Ok? {
        assert {} + ProcessRepo(b).value.1 == ProcessRepo(b).value.1;
      }
    } else {
      ProcessRepoAppend(a[1..], b);
      ProcessRepoAppendStep(a, b);
    }
  }

  /** Processing a GitHub response a second time changes nothing: a
      reported error is reported again, and the same repository list gives
      the same totals. */
  lemma GitHubIdempotent(st: ResourceState)
    requires GitHubProcessResponse(st).Ok?
    ensures GitHubProcessResponse(GitHubProcessResponse(st).value) == GitHubProcessResponse(st)
  {
    var r := GitHubProcessResponse(st).value;
    assert r.response == st.response;
  }

  // ---------------------------------------------------------------------
  // BitBucket

  /** `https://bitbucket.org/`, written in two parts like `GitHubBaseUrl`. */
  const BitBucketBaseUrl: string := "https://" + "bitbucket.org/"

  /** The endpoint table `BitBucketResource(user)` installs (version 2 of
      the BitBucket API). */
  function BitBucketEndpoints(user: string): map<string, string> {
    map["public_repo" := "/api/2.0/repositories/" + user + "/"]
  }

  /** `BitBucketResource(user)`. */
  function NewBitBucket(user: string): (r: Result<Resource>)
    ensures r.Ok? && r.value.kind == BitBucket
    ensures r.value.conn.baseUrl == BitBucketBaseUrl && r.value.conn.serviceEndpoints == BitBucketEndpoints(user)
    ensures r.value.state == FreshState
  {
    SecureBaseUrlKept("bitbucket.org/", BitBucketBaseUrl);
    NewResource(BitBucket, "https", BitBucketBaseUrl, true, BitBucketEndpoints(user))
  }

  /** The watchers link of one repository, `links.watchers.href`: none when
      `links` or `watchers` is falsy, a raise when either is not a dict. */
  function WatcherLink(fields: map<string, Json>): (r: Result<seq<Json>>)
    ensures r.Ok? <==>
      var links := Get(fields, "links", JNull);
      || !Truthy(links)
      || (links.JObject? && (!Truthy(Get(links.fields, "watchers", JNull)) || Get(links.fields, "watchers", JNull).JObject?))
    ensures r.Ok? ==> |r.value| <= 1
    ensures r.Ok? && |r.value| == 1 ==>
      && Get(fields, "links", JNull).JObject?
      && Get(Get(fields, "links", JNull).fields, "watchers", JNull).JObject?
      && r.value[0] == Get(Get(Get(fields, "links", JNull).fields, "watchers", JNull).fields, "href", JNull)
    ensures r.Ok? && |r.value| == 0 ==>
      || !Truthy(Get(fields, "links", JNull))
      || (Get(fields, "links", JNull).JObject? && !Truthy(Get(Get(fields, "links", JNull).fields, "watchers", JNull)))
    ensures r.Raised? ==> r.error.AttributeError?
  {
    var links := Get(fields, "links", JNull);
    if !Truthy(links) then Ok([])
    else if !links.JObject? then Raised(NoGet(links))
    else
      var watchers := Get(links.fields, "watchers", JNull);
      if !Truthy(watchers) then Ok([])
      else if !watchers.JObject? then Raised(NoGet(watchers))
      else Ok([Get(watchers.fields, "href", JNull)])
  }

  /** What one repository of a BitBucket page contributes: its language
      and its watchers link. */
  function ScanRepo(repo: Json): (r: Result<(set<string>, seq<Json>)>)
    ensures r.Ok? <==> repo.JObject? && RepoLanguage(repo.fields).Ok? && WatcherLink(repo.fields).Ok?
    ensures r.Ok? ==> r.value == (RepoLanguage(repo.fields).value, WatcherLink(repo.fields).value)
  {
    if !repo.JObject? then Raised(NoGet(repo))
    else
      var langs :- RepoLanguage(repo.fields);
      var link :- WatcherLink(repo.fields);
      Ok((langs, link))
  }

  /** The loop over `values`: the languages and the watchers links, in
      repository order; the first repository that cannot be read raises. */
  function ScanRepos(repos: seq<Json>): (r: Result<(set<string>, seq<Json>)>)
    ensures r.Ok? <==> forall k | 0 <= k < |repos| :: ScanRepo(repos[k]).Ok?
    ensures r.Raised? ==> exists k | 0 <= k < |repos| ::
      && ScanRepo(repos[k]) == Raised(r.error)
      && forall j | 0 <= j < k :: ScanRepo(repos[j]).Ok?
    ensures r.Ok? ==> |r.value.1| <= |repos|
  {
    if repos == [] then Ok(({}, []))
    else
      var head :- ScanRepo(repos[0]);
      var rest :- ScanRepos(repos[1..]);
      assert forall k | 1 <= k < |repos| :: repos[k] == repos[1..][k - 1];
      Ok((head.0 + rest.0, head.1 + rest.1))
  }

  /** A language is collected exactly when some repository has it. */
  lemma {:induction false} ScanReposLanguages(repos: seq<Json>, lang: string)
    requires ScanRepos(repos).Ok?
    ensures lang in ScanRepos(repos).value.0 <==>
      exists k | 0 <= k < |repos| :: lang in ScanRepo(repos[k]).value.0
    decreases |repos|
  {
    if repos != [] {
      ScanReposLanguages(repos[1..], lang);
      if lang in ScanRepos(repos[1..]).value.0 {
        var k :| 0 <= k < |repos[1..]| && lang in ScanRepo(repos[1..][k]).value.0;
        assert repos[1..][k] == repos[k + 1];
      }
      if exists k | 0 <= k < |repos| :: lang in ScanRepo(repos[k]).value.0 {
        var k :| 0 <= k < |repos| && lang in ScanRepo(repos[k]).value.0;
        if k > 0 {
          assert repos[1..][k - 1] == repos[k];
        }
      }
    }
  }

  /** A language set and a list of links: languages unite, links append. */
  function JoinScan(x: (set<string>, seq<Json>), y: (set<string>, seq<Json>)): (set<string>, seq<Json>) {
    (x.0 + y.0, x.1 + y.1)
  }

  lemma JoinScanAssociative(x: (set<string>, seq<Json>), y: (set<string>, seq<Json>), z: (set<string>, seq<Json>))
    ensures JoinScan(x, JoinScan(y, z)) == JoinScan(JoinScan(x, y), z)
  {
    assert x.0 + (y.0 + z.0) == (x.0 + y.0) + z.0;
    assert x.1 + (y.1 + z.1) == (x.1 + y.1) + z.1;
  }

  lemma ScanReposStep(repos: seq<Json>)
    requires repos != []
    ensures ScanRepos(repos) == Combine(ScanRepo(repos[0]), ScanRepos(repos[1..]), JoinScan)
  {
    var h, t := ScanRepo(repos[0]), ScanRepos(repos[1..]);
    if h.Ok? && t.Ok? {
      assert ScanRepos(repos) == Ok(JoinScan(h.value, t.value));
    }
  }

  /** The inductive step of `ScanReposAppend`: from the rest of `a`
      followed by `b` to all of `a` followed by `b`. */
  lemma ScanReposAppendStep(a: seq<Json>, b: seq<Json>)
    requires a != []
    requires ScanRepos(a[1..] + b) == Combine(ScanRepos(a[1..]), ScanRepos(b), JoinScan)
    ensures ScanRepos(a + b) == Combine(ScanRepos(a), ScanRepos(b), JoinScan)
  {
    var x, y, z := ScanRepo(a[0]), ScanRepos(a[1..]), ScanRepos(b);
    TailOfAppend(a, b);
    ScanReposStep(a + b);
    ScanReposStep(a);
    if x.Ok? && y.Ok? && z.Ok? {
      JoinScanAssociative(x.value, y.value, z.value);
    }
    CombineRegroup(ScanRepos(a + b), ScanRepos(a), x, y, z, JoinScan);
  }

  /** Scanning a concatenation of pages is scanning each: the links of the
      first part come first. */
  lemma {:induction false} ScanReposAppend(a: seq<Json>, b: seq<Json>)
    ensures ScanRepos(a + b) == Combine(ScanRepos(a), ScanRepos(b), JoinScan)
    decreases |a|
  {
    if a == [] {
      assert a + b == b;
      if ScanRepos(b).Ok? {
        assert {} + ScanRepos(b).value.0 == ScanRepos(b).value.0;
        assert [] + ScanRepos(b).value.1 == ScanRepos(b).value.1;
      }
    } else {
      ScanReposAppend(a[1..], b);
      ScanReposAppendStep(a, b);
    }
  }

  /** `int(res.get('size'))` for one watchers response. */
  function WatchersOf(res: FetchResult): (r: Result<int>)
    ensures r.Ok? ==> res.Payload? && res.body.JObject? && r == ToInt(Get(res.body.fields, "size", JNull))
    ensures res.Payload? && res.body.JObject? ==> r == ToInt(Get(res.body.fields, "size", JNull))
  {
    match res
    case Failure(_) => Raised(NotAPayload("get"))
    case Payload(body) =>
      if body.JObject? then ToInt(Get(body.fields, "size", JNull)) else Raised(NoGet(body))
  }

  /** The sum of the watchers responses' sizes; the first unreadable one
      raises. */
  function WatcherTotal(responses: seq<FetchResult>): (r: Result<int>)
    ensures r.Ok? <==> forall k | 0 <= k < |responses| :: WatchersOf(responses[k]).Ok?
    ensures r.Raised? ==> exists k | 0 <= k < |responses| ::
      && WatchersOf(responses[k]) == Raised(r.error)
      && forall j | 0 <= j < k :: WatchersOf(responses[j]).Ok?
  {
    if responses == [] then Ok(0)
    else
      var head :- WatchersOf(responses[0]);
      var rest :- WatcherTotal(responses[1..]);
      assert forall k | 1 <= k < |responses| :: responses[k] == responses[1..][k - 1];
      Ok(head + rest)
  }

  /** A single watchers response's total is its own `int(size)`. */
  lemma WatcherTotalSingle(res: FetchResult)
    ensures WatcherTotal([res]) == WatchersOf(res)
  {
    assert [res][1..] == [];
  }

  /** The watchers page of a repository watched by `n` users. */
  function SizePage(n: int): (r: FetchResult)
    ensures WatchersOf(r) == Ok(n)
  {
    Payload(JObject(map["size" := JInt(n)]))
  }

  /** The sum of a sequence of counts. */
  function Sum(xs: seq<int>): int
  {
    if xs == [] then 0 else xs[0] + Sum(xs[1..])
  }

  /** Pages reporting sizes `n_1, ..., n_k` give the total `n_1 + ... + n_k`. */
  lemma {:induction false} WatcherTotalOfSizes(sizes: seq<int>)
    ensures WatcherTotal(seq(|sizes|, k requires 0 <= k < |sizes| => SizePage(sizes[k]))) == Ok(Sum(sizes))
  {
    var pages := seq(|sizes|, k requires 0 <= k < |sizes| => SizePage(sizes[k]));
    if sizes != [] {
      WatcherTotalOfSizes(sizes[1..]);
      assert pages[1..] == seq(|sizes[1..]|, k requires 0 <= k < |sizes[1..]| => SizePage(sizes[1..][k]));
      assert WatchersOf(pages[0]) == Ok(sizes[0]);
    }
  }

  /** The watcher total of a concatenation is the sum of the parts'. */
  lemma {:induction false} WatcherTotalAppend(a: seq<FetchResult>, b: seq<FetchResult>)
    ensures WatcherTotal(a + b).Ok? <==> WatcherTotal(a).Ok? && WatcherTotal(b).Ok?
    ensures WatcherTotal(a + b).Ok? ==>
      WatcherTotal(a + b).value == WatcherTotal(a).value + WatcherTotal(b).value
    ensures WatcherTotal(a).Raised? ==> WatcherTotal(a + b) == WatcherTotal(a)
    decreases |a|
  {
    if a == [] {
      assert a + b == b;
    } else {
      assert (a + b)[0] == a[0];
      assert (a + b)[1..] == a[1..] + b;
      WatcherTotalAppend(a[1..], b);
    }
  }

  /** Where `BitBucketResource.process_response` stands before the watchers
      links are fetched: done (an error was reported), or waiting for the
      responses of the collected links. */
  datatype BitBucketStep = Settled(state: ResourceState) | AwaitWatchers(state: ResourceState, links: seq<Json>)

  /** When the collection step of a BitBucket response (not None) returns:
      the error it reads is truthy, or the body is a dict whose `values`
      can be iterated and every repository there can be scanned. */
  predicate CollectSucceeds(st: ResourceState)
    requires !ResponseIsNone(st)
  {
    && ReportedErrors(st, "error").Ok?
    && (|| Truthy(ReportedErrors(st, "error").value)
        || (&& st.response.value.Payload?
            && st.response.value.body.JObject?
            && Records(Get(st.response.value.body.fields, "values", JNull)).Ok?
            && ScanRepos(Records(Get(st.response.value.body.fields, "values", JNull)).value).Ok?))
  }

  /** The part of `BitBucketResource.process_response` before the fetch: a
      recorded or reported error stops it; otherwise the body's `size` is
      the repository count (stored as it is) and the repositories under
      `values` give the languages and the watchers links. */
  function BitBucketCollect(st: ResourceState): (r: Result<BitBucketStep>)
    ensures ResponseIsNone(st) <==> r == Raised(ApiServiceException("Response is invalid"))
    ensures r.Ok? ==> r.value.state.response == st.response
    ensures r.Ok? && r.value.Settled? ==>
      Truthy(r.value.state.errors) && r.value.state == st.(errors := r.value.state.errors)
    ensures r.Ok? && r.value.AwaitWatchers? ==>
      && !Truthy(r.value.state.errors)
      && st.response.value.Payload?
      && st.response.value.body.JObject?
      && var fields := st.response.value.body.fields;
      && r.value.state.repoCount == Get(fields, "size", JInt(0))
      && Records(Get(fields, "values", JNull)).Ok?
      && ScanRepos(Records(Get(fields, "values", JNull)).value) == Ok((r.value.state.languages, r.value.links))
      && r.value.state.watcherCount == st.watcherCount
    ensures !ResponseIsNone(st) && r.Ok? ==> ReportedErrors(st, "error") == Ok(r.value.state.errors)
    ensures r.Ok? <==> !ResponseIsNone(st) && CollectSucceeds(st)
    ensures r.Ok? ==> (r.value.Settled? <==> Truthy(ReportedErrors(st, "error").value))
  {
    if ResponseIsNone(st) then Raised(ApiServiceException("Response is invalid"))
    else
      var errors :- ReportedErrors(st, "error");
      if Truthy(errors) then Ok(Settled(st.(errors := errors)))
      else
        match st.response.value
        case Failure(_) => Raised(NotAPayload("get"))
        case Payload(body) =>
          if !body.JObject? then Raised(NoGet(body))
          else
            var repos :- Records(Get(body.fields, "values", JNull));
            var scan :- ScanRepos(repos);
            Ok(AwaitWatchers(
              st.(errors := errors, repoCount := Get(body.fields, "size", JInt(0)), languages := scan.0),
              scan.1))
  }

  /** The part after the fetch: the watcher count is the sum of the sizes
      the watchers responses report. */
  function BitBucketCountWatchers(st: ResourceState, responses: seq<FetchResult>): (r: Result<ResourceState>)
    ensures r.Ok? <==> WatcherTotal(responses).Ok?
    ensures r.Ok? ==> r.value == st.(watcherCount := WatcherTotal(responses).value)
  {
    var total :- WatcherTotal(responses);
    Ok(st.(watcherCount := total))
  }

  /** `BitBucketResource.process_response`, where `fetch` stands for the
      executor that fetches the collected watchers links; whatever results
      it returns are summed. */
  function BitBucketProcessResponse(st: ResourceState, fetch: seq<Json> -> seq<FetchResult>): (r: Result<ResourceState>)
    ensures ResponseIsNone(st) <==> r == Raised(ApiServiceException("Response is invalid"))
    ensures r.Ok? ==> r.value.response == st.response
    ensures r.Ok? && Truthy(r.value.errors) ==> r.value == st.(errors := r.value.errors)
    ensures r.Ok? && !Truthy(r.value.errors) ==>
      && BitBucketCollect(st).Ok?
      && BitBucketCollect(st).value.AwaitWatchers?
      && r.value.repoCount == BitBucketCollect(st).value.state.repoCount
      && r.value.languages == BitBucketCollect(st).value.state.languages
      && WatcherTotal(fetch(BitBucketCollect(st).value.links)) == Ok(r.value.watcherCount)
    ensures !ResponseIsNone(st) && r.Ok? ==> ReportedErrors(st, "error") == Ok(r.value.errors)
    ensures r.Ok? <==>
      && BitBucketCollect(st).Ok?
      && (|| BitBucketCollect(st).value.Settled?
          || WatcherTotal(fetch(BitBucketCollect(st).value.links)).Ok?)
  {
    var step :- BitBucketCollect(st);
    match step
    case Settled(done) => Ok(done)
    case AwaitWatchers(collected, links) => BitBucketCountWatchers(collected, fetch(links))
  }

  /** Processing a BitBucket response a second time, with the same fetch
      results, changes nothing. */
  lemma BitBucketIdempotent(st: ResourceState, fetch: seq<Json> -> seq<FetchResult>)
    requires BitBucketProcessResponse(st, fetch).Ok?
    ensures BitBucketProcessResponse(BitBucketProcessResponse(st, fetch).value, fetch) == BitBucketProcessResponse(st, fetch)
  {
    var r := BitBucketProcessResponse(st, fetch).value;
    assert r.response == st.response;
  }

  // ---------------------------------------------------------------------
  // Dispatch

  /** `instance.process_response()` for an instance of the given class. */
  function ProcessResponse(kind: ProviderKind, st: ResourceState, fetch: seq<Json> -> seq<FetchResult>): (r: Result<ResourceState>)
    ensures ResponseIsNone(st) ==> r == Raised(ApiServiceException("Response is invalid"))
    ensures kind == BaseResource ==> r.Raised?
    ensures r.Ok? ==> r.value.response == st.response
  {
    match kind
    case BaseResource => BaseProcessResponse(st)
    case GitHub => GitHubProcessResponse(st)
    case BitBucket => BitBucketProcessResponse(st, fetch)
  }

  /** A fetch that failed with a non-empty message: either provider
      records the message as its error and changes nothing else. */
  lemma FailureRecorded(kind: ProviderKind, st: ResourceState, fetch: seq<Json> -> seq<FetchResult>, message: string)
    requires st.response == Some(Failure(message)) && message != ""
    ensures kind != BaseResource ==> ProcessResponse(kind, st, fetch) == Ok(st.(errors := JStr(message)))
  {
    assert Truthy(JStr(message));
  }

  /** The body key a provider reads its error from. */
  function Marker(kind: ProviderKind): string {
    if kind == GitHub then "message" else "error"
  }

  /** A dict or list body in which `marker in body` is false. */
  predicate NoMarker(body: Json, marker: string) {
    || (body.JObject? && marker !in body.fields)
    || (body.JList? && JStr(marker) !in body.items)
  }

  /** A truthy error under the body's marker key is recorded, and nothing
      is counted. */
  lemma MarkerRecorded(kind: ProviderKind, st: ResourceState, fetch: seq<Json> -> seq<FetchResult>, fields: map<string, Json>)
    requires st.response == Some(Payload(JObject(fields)))
    requires Marker(kind) in fields && Truthy(fields[Marker(kind)])
    ensures kind != BaseResource ==> ProcessResponse(kind, st, fetch) == Ok(st.(errors := fields[Marker(kind)]))
  {
  }

  /** An error recorded by an earlier processing stays, and still blocks
      the counting, while the response does not report an error of its
      own. */
  lemma RecordedErrorPersists(kind: ProviderKind, st: ResourceState, fetch: seq<Json> -> seq<FetchResult>)
    requires Truthy(st.errors)
    requires st.response.Some? && st.response.value.Payload? && NoMarker(st.response.value.body, Marker(kind))
    ensures kind != BaseResource ==> ProcessResponse(kind, st, fetch) == Ok(st)
  {
  }

  /** Every class rejects a `None` response the way the base class does:
      the providers override only what happens to a real response. */
  lemma NoneRejectedLikeBase(kind: ProviderKind, st: ResourceState, fetch: seq<Json> -> seq<FetchResult>)
    requires ResponseIsNone(st)
    ensures ProcessResponse(kind, st, fetch) == BaseProcessResponse(st)
  {
  }

  /** Languages that differ only in case are reported under one name, so
      `"go"` in one repository and `"GO"` in another count once. */
  lemma RepoLanguageIgnoresCase(a: map<string, Json>, b: map<string, Json>)
    requires Get(a, "language", JNull).JStr? && Get(b, "language", JNull).JStr?
    requires SameIgnoringCase(Get(a, "language", JNull).s, Get(b, "language", JNull).s)
    ensures RepoLanguage(a) == RepoLanguage(b)
  {
    var s, t := Get(a, "language", JNull).s, Get(b, "language", JNull).s;
    CapitalizeIgnoresCase(s, t);
  }
}

=== FILE: providers_examples.dfy ===
/** A GitHub repository list and a BitBucket repository page worked through
    `process_response`: readable listings are processed, not rejected. */
module ProviderExamples {
  import opened Wrappers
  import opened Text
  import opened JsonValues
  import opened Resources
  import opened Providers

  /** One GitHub repository record with a language and a watcher count. */
  function GitHubRepo(language: string, watchers: int): Json {
    JObject(map["language" := JStr(language), "watchers_count" := JInt(watchers)])
  }

  /** A fresh resource holding the given response. */
  function Responded(body: Json): ResourceState {
    FreshState.(response := Some(Payload(body)))
  }

  lemma CapitalizedNames()
    ensures Capitalize("Go") == "Go"
    ensures Capitalize("go") == "Go"
    ensures Capitalize("Python") == "Python"
  {
  }

  /** The three repositories of the GitHub example. */
  function ThreeRepos(): seq<Json> {
    [GitHubRepo("Go", 1), GitHubRepo("go", 2), GitHubRepo("Python", 3)]
  }

  /** `process_repo` on them: six watchers, languages Go and Python. */
  lemma ThreeReposTally()
    ensures ProcessRepo(ThreeRepos()) == Ok((6, {"Go", "Python"}))
  {
    var repos := ThreeRepos();
    CapitalizedNames();
    assert RepoContribution(repos[0]) == Ok((1, {"Go"}));
    assert RepoContribution(repos[1]) == Ok((2, {"Go"}));
    assert RepoContribution(repos[2]) == Ok((3, {"Python"}));
    var tail1, tail2 := repos[1..], repos[2..];
    assert tail1[0] == repos[1] && tail1[1..] == tail2;
    assert tail2[0] == repos[2] && tail2[1..] == [];
    ProcessRepoStep(tail2);
    var none: set<string> := {};
    assert ProcessRepo(tail2[1..]) == Ok((0, none));
    assert {"Python"} + none == {"Python"};
    assert ProcessRepo(tail2) == Ok((3, {"Python"}));
    ProcessRepoStep(tail1);
    assert {"Go"} + {"Python"} == {"Go", "Python"};
    assert ProcessRepo(tail1) == Ok((5, {"Go", "Python"}));
    ProcessRepoStep(repos);
    assert {"Go"} + {"Go", "Python"} == {"Go", "Python"};
  }

  /** Three repositories in Go, go and Python watched by 1, 2 and 3 users:
      three repositories, six watchers, and the languages Go and Python. */
  lemma GitHubThreeRepos()
    ensures GitHubProcessResponse(Responded(JList(ThreeRepos())))
      == Ok(Responded(JList(ThreeRepos())).(repoCount := JInt(3), watcherCount := 6, languages := {"Go", "Python"}))
  {
    var st := Responded(JList(ThreeRepos()));
    assert JStr("message") !in ThreeRepos();
    assert ReportedErrors(st, "message") == Ok(JNull);
    ThreeReposTally();
  }

  /** A BitBucket page of size 10 listing no repositories: the count is the
      page's `size`, nothing is fetched, and no watchers are counted. */
  lemma BitBucketEmptyPage(fetch: seq<Json> -> seq<FetchResult>)
    requires fetch([]) == []
    ensures BitBucketProcessResponse(Responded(JObject(map["size" := JInt(10), "values" := JList([])])), fetch)
      == Ok(Responded(JObject(map["size" := JInt(10), "values" := JList([])])).(repoCount := JInt(10)))
  {
  }
}

=== FILE: resources.dfy ===
/** The resource base class of `app/service/resources/__init__.py`: the
    per-provider state that a fetched response is processed into. */
module Resources {
  import opened Wrappers
  import opened Text
  import opened JsonValues
  import opened Connection

  /** One entry of the list the fetch executor returns: the decoded body,
      or the exception object the fetch produced in its place (with
      `str(e)` as its message). */
  datatype FetchResult = Payload(body: Json) | Failure(message: string)

  /** The mutable attributes of a resource. `repoCount` holds whatever the
      provider assigned (BitBucket stores the body's `size` unconverted);
      `errors` is `None` (`JNull`) until a provider reports one. */
  datatype ResourceState = ResourceState(
    response: Option<FetchResult>,
    languages: set<string>,
    repoCount: Json,
    watcherCount: int,
    errors: Json)

  /** `self.response is None`: never assigned, or assigned a `null` body. */
  predicate ResponseIsNone(st: ResourceState) {
    st.response == None || st.response == Some(Payload(JNull))
  }

  /** The state `Resource.__init__` starts from. */
  const FreshState: ResourceState := ResourceState(None, {}, JInt(0), 0, JNull)

  /** Which `process_response` an instance runs. */
  datatype ProviderKind = BaseResource | GitHub | BitBucket

  datatype Resource = Resource(kind: ProviderKind, conn: ServiceConnection, state: ResourceState)

  /** `Resource(protocol, base_url, secure_connection)`, holding the given
      service endpoint table. */
  function NewResource(
    kind: ProviderKind, protocol: string, baseUrl: string, secure: bool, endpoints: map<string, string>
  ): (r: Result<Resource>)
    ensures r.Raised? <==> secure && protocol != "https"
    ensures r.Raised? ==> r.error.ValueError?
    ensures r.Ok? ==>
      && r.value.kind == kind
      && ResponseIsNone(r.value.state)
      && r.value.state.languages == {}
      && r.value.state.repoCount == JInt(0)
      && r.value.state.watcherCount == 0
      && !Truthy(r.value.state.errors)
    ensures r.Ok? ==> r.value.conn.serviceEndpoints == endpoints && r.value.conn.emulatorEndpoints == map[]
    ensures r.Ok? && protocol in Protocols ==> StartsWith(r.value.conn.baseUrl, protocol + "://")
    ensures r.Ok? ==> r.value.state == FreshState
    ensures r.Ok? ==> r.value.state.response == None && r.value.state.errors == JNull
  {
    var conn :- NewServiceConnection(protocol, baseUrl, secure, "", endpoints, map[]);
    Ok(Resource(kind, conn, FreshState))
  }

  /** `get_repo_url(repo_key)`. */
  function RepoUrl(res: Resource, repoKey: string): string {
    ServiceConnectionUrl(res.conn, repoKey)
  }

  /** The `response` setter. */
  function WithResponse(res: Resource, value: FetchResult): (r: Resource)
    ensures r.state.response == Some(value)
    ensures r.kind == res.kind && r.conn == res.conn
    ensures r.state.(response := res.state.response) == res.state
  {
    res.(state := res.state.(response := Some(value)))
  }

  /** The setter's laws: the last assignment wins, re-assigning the held
      response changes nothing, and an assigned response reads as `None`
      only when it is a `null` body. */
  lemma ResponseAssigned(res: Resource, first: FetchResult, second: FetchResult)
    ensures WithResponse(WithResponse(res, first), second) == WithResponse(res, second)
    ensures res.state.response == Some(first) ==> WithResponse(res, first) == res
    ensures ResponseIsNone(WithResponse(res, first).state) <==> first == Payload(JNull)
  {
  }

  /** `Resource.process_response`: the base class always raises, saying
      why the response cannot be processed. */
  function BaseProcessResponse(st: ResourceState): (r: Result<ResourceState>)
    ensures r.Raised?
    ensures r.error == ApiServiceException("Response is invalid") <==> ResponseIsNone(st)
    ensures r.error == NotImplementedError <==> !ResponseIsNone(st)
  {
    if ResponseIsNone(st) then Raised(ApiServiceException("Response is invalid"))
    else Raised(NotImplementedError)
  }
}

=== FILE: text.dfy ===
/** Character and string helpers: ASCII case mapping (Python's `str.lower`,
    `str.upper` and `str.capitalize` restricted to ASCII), prefixes and
    substrings. */
module Text {

  predicate IsUpper(c: char) {
    'A' <= c <= 'Z'
  }

  predicate IsLower(c: char) {
    'a' <= c <= 'z'
  }

  predicate IsAsciiLetter(c: char) {
    IsUpper(c) || IsLower(c)
  }

  predicate IsDigit(c: char) {
    '0' <= c <= '9'
  }

  function ToUpper(c: char): (u: char)
    ensures !IsLower(u)
    ensures IsLower(c) ==> IsUpper(u)
    ensures !IsLower(c) ==> u == c
  {
    if IsLower(c) then (c as int - 32) as char else c
  }

  function ToLower(c: char): (l: char)
    ensures !IsUpper(l)
    ensures IsUpper(c) ==> IsLower(l)
    ensures !IsUpper(c) ==> l == c
  {
    if IsUpper(c) then (c as int + 32) as char else c
  }

  /** Every character mapped through `ToLower`. */
  function LowerAll(s: string): (r: string)
    ensures |r| == |s|
    ensures forall k | 0 <= k < |s| :: r[k] == ToLower(s[k])
  {
    seq(|s|, k requires 0 <= k < |s| => ToLower(s[k]))
  }

  predicate NoUpper(s: string) {
    forall k | 0 <= k < |s| :: !IsUpper(s[k])
  }

  lemma LowerAllFixed(s: string)
    ensures LowerAll(s) == s <==> NoUpper(s)
  {
    if LowerAll(s) == s {
      forall k | 0 <= k < |s|
        ensures !IsUpper(s[k])
      {
        assert LowerAll(s)[k] == ToLower(s[k]);
      }
    }
  }

  /** `s.capitalize()`: first character upper-cased, the rest lower-cased. */
  function Capitalize(s: string): (r: string)
    ensures |r| == |s|
    ensures |r| > 0 ==> !IsLower(r[0])
    ensures forall k | 1 <= k < |r| :: !IsUpper(r[k])
    ensures r == s <==> |s| == 0 || (!IsLower(s[0]) && NoUpper(s[1..]))
  {
    if |s| == 0 then "" else LowerAllFixed(s[1..]); [ToUpper(s[0])] + LowerAll(s[1..])
  }

  /** `s` and `t` differ at most in the ASCII case of their letters. */
  predicate SameIgnoringCase(s: string, t: string) {
    |s| == |t| && forall k | 0 <= k < |s| :: ToLower(s[k]) == ToLower(t[k])
  }

  /** Strings that differ only in case capitalize to the same string, so
      `"go"`, `"GO"` and `"Go"` all become `"Go"`. */
  lemma CapitalizeIgnoresCase(s: string, t: string)
    requires SameIgnoringCase(s, t)
    ensures Capitalize(s) == Capitalize(t)
  {
    if |s| > 0 {
      assert ToLower(s[0]) == ToLower(t[0]);
      assert ToUpper(s[0]) == ToUpper(t[0]);
      assert LowerAll(s[1..]) == LowerAll(t[1..]) by {
        forall k | 0 <= k < |s| - 1
          ensures LowerAll(s[1..])[k] == LowerAll(t[1..])[k]
        {
          assert ToLower(s[k + 1]) == ToLower(t[k + 1]);
        }
      }
    }
  }

  predicate StartsWith(s: string, prefix: string) {
    |prefix| <= |s| && s[..|prefix|] == prefix
  }

  /** Python's `t in s` on two strings: `t` occurs somewhere in `s`. */
  predicate ContainsSubstring(s: string, t: string)
    decreases |s|
  {
    StartsWith(s, t) || (|s| > 0 && ContainsSubstring(s[1..], t))
  }
}

=== FILE: urlparse.dfy ===
/** The part of Python's `urllib.parse` that `build_url` relies on:
    `urlparse` splits a URL into the six components of section 3 of
    RFC 3986 (with `;params` split off the last path segment), `urlunparse`
    joins them back, and `urlencode` builds a query string. The library is
    not part of this model's source; the definitions follow CPython's
    algorithm. */
module UrlParse {
  import opened Text

  datatype Components = Components(
    scheme: string,
    netloc: string,
    path: string,
    params: string,
    query: string,
    fragment: string)

  /** Schemes whose URLs carry a `//netloc` part (CPython `uses_netloc`). */
  const UsesNetloc: set<string> := {
    "", "ftp", "http", "gopher", "nntp", "telnet", "imap", "wais", "file", "mms",
    "https", "shttp", "snews", "prospero", "rtsp", "rtsps", "rtspu", "rsync",
    "svn", "svn+ssh", "sftp", "nfs", "git", "git+ssh", "ws", "wss", "itms-services"}

  /** Schemes whose last path segment may carry `;params` (CPython `uses_params`). */
  const UsesParams: set<string> := {
    "", "ftp", "hdl", "prospero", "http", "imap", "https", "shttp", "rtsp",
    "rtsps", "rtspu", "sip", "sips", "mms", "sftp", "tel"}

  predicate IsSchemeChar(c: char) {
    IsAsciiLetter(c) || IsDigit(c) || c == '+' || c == '-' || c == '.'
  }

  // ---------------------------------------------------------------------
  // Searching. Python returns -1 for "not found"; these return |s| instead.

  /** `s.find(c, start)`: the first index at or after `start` holding `c`. */
  function FindFrom(s: string, c: char, start: nat): (i: nat)
    requires start <= |s|
    ensures start <= i <= |s|
    ensures i < |s| ==> s[i] == c
    ensures forall j | start <= j < i :: s[j] != c
    decreases |s| - start
  {
    if start == |s| then |s|
    else if s[start] == c then start
    else FindFrom(s, c, start + 1)
  }

  /** `s.find(c)`. */
  function Find(s: string, c: char): (i: nat)
    ensures i <= |s|
    ensures i < |s| ==> s[i] == c
    ensures forall j | 0 <= j < i :: s[j] != c
  {
    FindFrom(s, c, 0)
  }

  /** `s.rfind(c)`: the last index holding `c`, or -1. */
  function RFind(s: string, c: char): (i: int)
    ensures -1 <= i < |s|
    ensures i >= 0 ==> s[i] == c
    ensures forall j | i < j < |s| :: s[j] != c
  {
    if |s| == 0 then -1
    else if s[|s| - 1] == c then |s| - 1
    else RFind(s[..|s| - 1], c)
  }

  /** The first index at or after `start` holding one of `/`, `?`, `#`
      (CPython `_splitnetloc`). */
  function FindDelimiter(s: string, start: nat): (i: nat)
    requires start <= |s|
    ensures start <= i <= |s|
    ensures i < |s| ==> s[i] in {'/', '?', '#'}
    ensures forall j | start <= j < i :: s[j] !in {'/', '?', '#'}
    decreases |s| - start
  {
    if start == |s| then |s|
    else if s[start] in {'/', '?', '#'} then start
    else FindDelimiter(s, start + 1)
  }

  /** `s.split(c, 1)` when `c in s`, and `(s, '')` otherwise. */
  function SplitOnce(s: string, c: char): (string, string) {
    var i := Find(s, c);
    if i < |s| then (s[..i], s[i + 1..]) else (s, "")
  }

  // ---------------------------------------------------------------------
  // urlparse

  /** The scheme prefix of `urlsplit`: letters first, scheme characters up
      to the first `:`, lower-cased. */
  function SplitScheme(url: string): (string, string) {
    var i := Find(url, ':');
    if 0 < i < |url| && IsAsciiLetter(url[0]) && forall k | 0 <= k < i :: IsSchemeChar(url[k])
    then (LowerAll(url[..i]), url[i + 1..])
    else ("", url)
  }

  /** The netloc after a leading `//`, up to the first `/`, `?` or `#`. */
  function SplitNetloc(url: string): (string, string) {
    if StartsWith(url, "//") then
      var d := FindDelimiter(url, 2);
      (url[2..d], url[d..])
    else ("", url)
  }

  /** The last path segment, from the last `/` on. */
  function LastSegment(path: string): string {
    var i := RFind(path, '/');
    if i >= 0 then path[i..] else path
  }

  /** CPython `_splitparams`: `;params` is cut at the first `;` of the last
      path segment. */
  function SplitParams(url: string): (string, string) {
    var slash := RFind(url, '/');
    var i := FindFrom(url, ';', if slash >= 0 then slash else 0);
    if i < |url| then (url[..i], url[i + 1..]) else (url, "")
  }

  /** `urlparse(url)`. */
  function Parse(url: string): Components {
    var (scheme, afterScheme) := SplitScheme(url);
    var (netloc, afterNetloc) := SplitNetloc(afterScheme);
    var (beforeFragment, fragment) := SplitOnce(afterNetloc, '#');
    var (beforeQuery, query) := SplitOnce(beforeFragment, '?');
    var (path, params) :=
      if scheme in UsesParams && ';' in beforeQuery then SplitParams(beforeQuery) else (beforeQuery, "");
    Components(scheme, netloc, path, params, query, fragment)
  }

  // ---------------------------------------------------------------------
  // urlunparse

  function JoinParams(path: string, params: string): string {
    if params != "" then path + ";" + params else path
  }

  /** Whether `urlunsplit` writes a `//netloc` part in front of `url`. */
  predicate WritesAuthority(c: Components, url: string) {
    c.netloc != "" || (c.scheme != "" && c.scheme in UsesNetloc && !StartsWith(url, "//"))
  }

  /** Path and params, behind `//netloc` when there is one; a relative path
      gains a leading `/` there. */
  function Hierarchy(c: Components): string {
    var url := JoinParams(c.path, c.params);
    if WritesAuthority(c, url) then
      "//" + c.netloc + (if url != "" && url[0] != '/' then "/" + url else url)
    else url
  }

  function SchemePart(c: Components): string {
    if c.scheme != "" then c.scheme + ":" else ""
  }

  function QueryPart(c: Components): string {
    if c.query != "" then "?" + c.query else ""
  }

  function FragmentPart(c: Components): string {
    if c.fragment != "" then "#" + c.fragment else ""
  }

  /** What follows the path: `?query` and `#fragment`, each when non-empty. */
  function Trailer(c: Components): string {
    QueryPart(c) + FragmentPart(c)
  }

  /** `urlunparse(c)`: `;`, `?` and `#` appear only for non-empty parts. */
  function Unparse(c: Components): string {
    SchemePart(c) + (Hierarchy(c) + Trailer(c))
  }

  // ---------------------------------------------------------------------
  // urlencode

  /** `urlencode(pairs)`: `key=value` items joined by `&`, in order. */
  function EncodeQuery(pairs: seq<(string, string)>): (q: string)
    ensures q == "" <==> pairs == []
    ensures (forall k | 0 <= k < |pairs| :: '#' !in pairs[k].0 && '#' !in pairs[k].1) ==> '#' !in q
  {
    if pairs == [] then ""
    else
      var item := pairs[0].0 + "=" + pairs[0].1;
      if |pairs| == 1 then item else item + "&" + EncodeQuery(pairs[1..])
  }

  // ---------------------------------------------------------------------
  // Round trip

  predicate ValidScheme(s: string) {
    s == "" || (IsAsciiLetter(s[0]) && forall k | 0 <= k < |s| :: IsSchemeChar(s[k]) && !IsUpper(s[k]))
  }

  /** Components that `Unparse` writes in a form `Parse` reads back unchanged. */
  predicate WellFormed(c: Components) {
    && ValidScheme(c.scheme)
    && '/' !in c.netloc && '?' !in c.netloc && '#' !in c.netloc
    && '?' !in c.path && '#' !in c.path
    && '/' !in c.params && '?' !in c.params && '#' !in c.params
    && '#' !in c.query
    && (c.params != "" ==> c.scheme in UsesParams)
    && (c.scheme in UsesParams ==> ';' !in LastSegment(c.path))
    && (c.netloc == "" ==> !StartsWith(c.path, "//"))
    && (c.scheme == "" && c.netloc == "" ==> ':' !in c.path && ':' !in c.params)
    && ((c.netloc != "" || (c.scheme != "" && c.scheme in UsesNetloc)) ==>
          (c.path == "" && c.params == "") || StartsWith(c.path, "/"))
  }

  lemma TrailerStart(c: Components)
    ensures Trailer(c) == "" || Trailer(c)[0] in {'?', '#'}
  {
  }

  lemma JoinParamsAvoids(path: string, params: string, ch: char)
    requires ch != ';' && ch !in path && ch !in params
    ensures ch !in JoinParams(path, params)
  {
  }

  lemma SplitSchemeOfPrefixed(scheme: string, rest: string)
    requires scheme != "" && ValidScheme(scheme)
    ensures SplitScheme(scheme + ":" + rest) == (scheme, rest)
  {
    var url := scheme + ":" + rest;
    assert url[|scheme|] == ':';
    assert forall j | 0 <= j < |scheme| :: url[j] == scheme[j];
    var i := Find(url, ':');
    assert i == |scheme|;
    assert url[..i] == scheme;
    LowerAllFixed(scheme);
    assert url[i + 1..] == rest;
  }

  /** A string whose first `:` comes after a character that cannot be in a
      scheme has no scheme. */
  lemma SplitSchemeAbsent(url: string, k: nat)
    requires k < |url| && !IsSchemeChar(url[k])
    requires forall j | 0 <= j <= k :: url[j] != ':'
    ensures SplitScheme(url) == ("", url)
  {
  }

  lemma SplitSchemeOfRelative(joined: string, trailer: string)
    requires ':' !in joined
    requires trailer == "" || trailer[0] in {'?', '#'}
    ensures SplitScheme(joined + trailer) == ("", joined + trailer)
  {
    var url := joined + trailer;
    if trailer != "" {
      assert url[|joined|] == trailer[0];
      assert forall j | 0 <= j < |joined| :: url[j] == joined[j];
      SplitSchemeAbsent(url, |joined|);
    } else {
      assert url == joined;
    }
  }

  lemma NoDoubleSlashJoined(path: string, params: string, trailer: string)
    requires !StartsWith(path, "//")
    requires trailer == "" || trailer[0] in {'?', '#'}
    ensures !StartsWith(JoinParams(path, params) + trailer, "//")
  {
    var w := JoinParams(path, params) + trailer;
    if |path| >= 2 {
      assert w[..2] == path[..2];
    } else if |path| == 1 && params != "" {
      assert w[1] == ';';
    } else if |path| == 1 && |w| >= 2 {
      assert w[1] == trailer[0];
    } else if |path| == 0 && params != "" {
      assert w[0] == ';';
    } else if |path| == 0 && w != "" {
      assert w[0] == trailer[0];
    }
  }

  lemma SplitNetlocOfAuthority(netloc: string, tail: string)
    requires '/' !in netloc && '?' !in netloc && '#' !in netloc
    requires tail == "" || tail[0] in {'/', '?', '#'}
    ensures SplitNetloc("//" + netloc + tail) == (netloc, tail)
  {
    var url := "//" + netloc + tail;
    assert StartsWith(url, "//");
    forall j | 2 <= j < 2 + |netloc|
      ensures url[j] !in {'/', '?', '#'}
    {
      assert url[j] == netloc[j - 2];
    }
    if tail != "" {
      assert url[2 + |netloc|] == tail[0];
    }
    var d := FindDelimiter(url, 2);
    assert d == 2 + |netloc|;
    assert url[2..d] == netloc;
    assert url[d..] == tail;
  }

  lemma SplitNetlocAbsent(url: string)
    requires !StartsWith(url, "//")
    ensures SplitNetloc(url) == ("", url)
  {
  }

  lemma SplitOnceAt(front: string, ch: char, back: string)
    requires ch !in front
    ensures SplitOnce(front + [ch] + back, ch) == (front, back)
  {
    var s := front + [ch] + back;
    assert s[|front|] == ch;
    assert forall j | 0 <= j < |front| :: s[j] == front[j];
    assert Find(s, ch) == |front|;
    assert s[..|front|] == front;
    assert s[|front| + 1..] == back;
  }

  lemma SplitOnceAbsent(s: string, ch: char)
    requires ch !in s
    ensures SplitOnce(s, ch) == (s, "")
  {
  }

  /** Characters appended after the last `ch` do not move it. */
  lemma RFindAppend(a: string, b: string, ch: char)
    requires ch !in b
    ensures RFind(a + b, ch) == RFind(a, ch)
  {
    var p := RFind(a, ch);
    var q := RFind(a + b, ch);
    if p >= 0 {
      assert (a + b)[p] == ch;
    }
    if q >= 0 && q < |a| {
      assert a[q] == (a + b)[q];
    }
  }

  /** No `;` follows the last `/` of `path`. */
  lemma LastSegmentFree(path: string)
    requires ';' !in LastSegment(path)
    ensures forall j | RFind(path, '/') < j < |path| :: path[j] != ';'
  {
    var p := RFind(path, '/');
    var start := if p >= 0 then p else 0;
    var segment := LastSegment(path);
    assert segment == path[start..];
    forall j | p < j < |path|
      ensures path[j] != ';'
    {
      assert path[j] == segment[j - start];
    }
  }

  /** The first `c` at or after `start` is the one at `i` when none comes
      before it. */
  lemma FindFromAt(s: string, c: char, start: nat, i: nat)
    requires start <= i < |s| && s[i] == c
    requires forall j | start <= j < i :: s[j] != c
    ensures FindFrom(s, c, start) == i
  {
  }

  /** `path;params` holds its first `;` from the last `/` on right after `path`. */
  lemma FirstSemicolonAfter(path: string, params: string, start: nat)
    requires start <= |path|
    requires forall j | start <= j < |path| :: path[j] != ';'
    ensures FindFrom(path + ";" + params, ';', start) == |path|
  {
    var url := path + ";" + params;
    assert forall j | start <= j < |path| :: url[j] == path[j];
    assert url[|path|] == ';';
    FindFromAt(url, ';', start, |path|);
  }

  /** Where `_splitparams` cuts once it has found its `;` at `i`. */
  lemma SplitParamsAt(url: string, i: nat)
    requires i < |url|
    requires var slash := RFind(url, '/'); FindFrom(url, ';', if slash >= 0 then slash else 0) == i
    ensures SplitParams(url) == (url[..i], url[i + 1..])
  {
  }

  lemma SplitParamsWith(path: string, params: string)
    requires '/' !in params
    requires ';' !in LastSegment(path)
    ensures SplitParams(path + ";" + params) == (path, params)
  {
    var url := path + ";" + params;
    var p := RFind(path, '/');
    var start := if p >= 0 then p else 0;
    assert RFind(url, '/') == p by {
      assert url == path + (";" + params);
      RFindAppend(path, ";" + params, '/');
    }
    assert FindFrom(url, ';', start) == |path| by {
      LastSegmentFree(path);
      assert p >= 0 ==> path[p] == '/';
      FirstSemicolonAfter(path, params, start);
    }
    SplitParamsAt(url, |path|);
    assert url[..|path|] == path;
    assert url[|path| + 1..] == params;
  }

  lemma SplitParamsWithout(path: string)
    requires ';' in path
    requires ';' !in LastSegment(path)
    ensures SplitParams(path) == (path, "")
  {
    var p := RFind(path, '/');
    LastSegmentFree(path);
    assert path[p] == '/';
  }

  /** Without a scheme, `//netloc` comes first and `/` is no scheme character. */
  lemma AuthorityHasNoScheme(c: Components)
    requires c.scheme == "" && c.netloc != ""
    ensures SplitScheme(Hierarchy(c) + Trailer(c)) == ("", Hierarchy(c) + Trailer(c))
  {
    var url := Hierarchy(c) + Trailer(c);
    assert url[0] == '/';
    SplitSchemeAbsent(url, 0);
  }

  /** Without a scheme or netloc, only path, params, query and fragment are
      written, and the path and params hold no `:`. */
  lemma RelativeHasNoScheme(c: Components)
    requires c.scheme == "" && c.netloc == ""
    requires ':' !in c.path && ':' !in c.params
    ensures SplitScheme(Hierarchy(c) + Trailer(c)) == ("", Hierarchy(c) + Trailer(c))
  {
    assert Hierarchy(c) == JoinParams(c.path, c.params);
    TrailerStart(c);
    JoinParamsAvoids(c.path, c.params, ':');
    SplitSchemeOfRelative(JoinParams(c.path, c.params), Trailer(c));
  }

  lemma ParseScheme(c: Components)
    requires WellFormed(c)
    ensures SplitScheme(Unparse(c)) == (c.scheme, Hierarchy(c) + Trailer(c))
  {
    var rest := Hierarchy(c) + Trailer(c);
    if c.scheme != "" {
      assert Unparse(c) == c.scheme + ":" + rest;
      SplitSchemeOfPrefixed(c.scheme, rest);
    } else if c.netloc != "" {
      assert Unparse(c) == rest;
      AuthorityHasNoScheme(c);
    } else {
      assert Unparse(c) == rest;
      RelativeHasNoScheme(c);
    }
  }

  /** With a `//netloc` part, the netloc ends where the rooted path, the
      query or the fragment begins. */
  lemma NetlocOfAuthority(c: Components)
    requires '/' !in c.netloc && '?' !in c.netloc && '#' !in c.netloc
    requires WritesAuthority(c, JoinParams(c.path, c.params))
    requires var joined := JoinParams(c.path, c.params); joined == "" || joined[0] == '/'
    ensures SplitNetloc(Hierarchy(c) + Trailer(c)) == (c.netloc, JoinParams(c.path, c.params) + Trailer(c))
  {
    TrailerStart(c);
    HierarchyOfAuthority(c);
    SplitNetlocOfParts(c.netloc, JoinParams(c.path, c.params), Trailer(c));
  }

  /** `//netloc`, a rooted or empty path, then a query or fragment part. */
  lemma SplitNetlocOfParts(netloc: string, joined: string, trailer: string)
    requires '/' !in netloc && '?' !in netloc && '#' !in netloc
    requires joined == "" || joined[0] == '/'
    requires trailer == "" || trailer[0] in {'?', '#'}
    ensures SplitNetloc("//" + netloc + joined + trailer) == (netloc, joined + trailer)
  {
    var tail := joined + trailer;
    if joined != "" {
      assert tail[0] == joined[0];
    } else {
      assert tail == trailer;
    }
    assert "//" + netloc + joined + trailer == "//" + netloc + tail;
    SplitNetlocOfAuthority(netloc, tail);
  }

  lemma HierarchyOfAuthority(c: Components)
    requires WritesAuthority(c, JoinParams(c.path, c.params))
    requires var joined := JoinParams(c.path, c.params); joined == "" || joined[0] == '/'
    ensures Hierarchy(c) == "//" + c.netloc + JoinParams(c.path, c.params)
  {
  }

  lemma ParseNetloc(c: Components)
    requires WellFormed(c)
    ensures SplitNetloc(Hierarchy(c) + Trailer(c)) == (c.netloc, JoinParams(c.path, c.params) + Trailer(c))
  {
    var joined := JoinParams(c.path, c.params);
    if WritesAuthority(c, joined) {
      assert joined == "" || joined[0] == '/';
      NetlocOfAuthority(c);
    } else {
      TrailerStart(c);
      assert Hierarchy(c) == joined;
      NoDoubleSlashJoined(c.path, c.params, Trailer(c));
      SplitNetlocAbsent(joined + Trailer(c));
    }
  }

  lemma ParseFragment(c: Components)
    requires '#' !in c.path && '#' !in c.params && '#' !in c.query
    ensures var joined := JoinParams(c.path, c.params);
      SplitOnce(joined + Trailer(c), '#') == (joined + QueryPart(c), c.fragment)
  {
    var joined := JoinParams(c.path, c.params);
    var front := joined + QueryPart(c);
    JoinParamsAvoids(c.path, c.params, '#');
    assert '#' !in QueryPart(c);
    assert '#' !in front;
    assert joined + Trailer(c) == front + FragmentPart(c);
    if c.fragment != "" {
      assert front + FragmentPart(c) == front + ['#'] + c.fragment;
      SplitOnceAt(front, '#', c.fragment);
    } else {
      assert front + FragmentPart(c) == front;
      SplitOnceAbsent(front, '#');
    }
  }

  lemma ParseQuery(c: Components)
    requires '?' !in c.path && '?' !in c.params
    ensures var joined := JoinParams(c.path, c.params);
      SplitOnce(joined + QueryPart(c), '?') == (joined, c.query)
  {
    var joined := JoinParams(c.path, c.params);
    JoinParamsAvoids(c.path, c.params, '?');
    if c.query != "" {
      assert joined + QueryPart(c) == joined + ['?'] + c.query;
      SplitOnceAt(joined, '?', c.query);
    } else {
      assert joined + QueryPart(c) == joined;
      SplitOnceAbsent(joined, '?');
    }
  }

  lemma ParseParams(c: Components)
    requires WellFormed(c)
    ensures var joined := JoinParams(c.path, c.params);
      (if c.scheme in UsesParams && ';' in joined then SplitParams(joined) else (joined, "")) == (c.path, c.params)
  {
    if c.scheme in UsesParams {
      if c.params != "" {
        SplitParamsWith(c.path, c.params);
      } else if ';' in c.path {
        SplitParamsWithout(c.path);
      }
    }
  }

  /** Parsing what `Unparse` writes gives back the components. */
  lemma ParseUnparse(c: Components)
    requires WellFormed(c)
    ensures Parse(Unparse(c)) == c
  {
    ParseScheme(c);
    ParseNetloc(c);
    ParseFragment(c);
    ParseQuery(c);
    ParseParams(c);
  }
}

=== FILE: wrappers.dfy ===
/** Outcome types shared by the whole model.

    The modelled Python code signals failure by raising; a raised exception
    becomes `Raised(e)`, and `:-` propagates it the way an uncaught exception
    leaves the caller. */
module Wrappers {

  datatype Option<+T> = None | Some(value: T)

  /** The exception classes the modelled code raises, or lets escape from the
      Python runtime when a payload has an unexpected shape. */
  datatype Exception =
    | ValueError(message: string)
    | ApiServiceException(message: string)
    | NotImplementedError
    | AssertionError
    | TypeError(message: string)
    | AttributeError(message: string)

  datatype Result<+T> = Ok(value: T) | Raised(error: Exception) {

    predicate IsFailure() {
      Raised?
    }

    function PropagateFailure<U>(): Result<U>
      requires Raised?
    {
      Raised(error)
    }

    function Extract(): T
      requires Ok?
    {
      value
    }
  }
}
